=== FILE: README.md ===
# Maintenance reminder bot, modelled in Dafny

The bot keeps recurring maintenance timers for Discord servers (guilds). Each
timer has an interval of n days, weeks or months, an owner, a description and
the channel it reminds. The timer waits, Scheduled, until its due date comes.
Then a periodic tick posts a "due" notice and the timer becomes Pending. While
it is pending the tick repeats the notice every `reminder_repeat_days` days.
`/done` starts the next cycle, counted from the moment it was marked done.

All state lives in two module-level dicts, `timers` (guild id to timer name to
timer) and `global_settings`. Both are saved to a JSON file after every change
and loaded at start-up.

The model is split into these modules:

- `Schedule` (`schedule.dfy`): due-date arithmetic, time as integer
  microseconds since `datetime.min`.
  - `calculate_next_due`, with Python's `str.lower` unit matching.
  - `strfdelta`'s clamped decomposition.
  - The "due since" value of the listing.
  - `datetime`/`timedelta` overflow, which becomes an error result.
- `Decimal` (`decimal.dfy`): `str(int)` and the accepted subset of `int(str)`.
  Guild ids go through these in the data file.
- `Settings` (`settings.dfy`): the "positive integer from the environment, or
  the default" rule.
- `Timers` (`timers.dfy`): the timer record and the registry commands create,
  done and delete, as functions on the table.
  - The consistency invariant: pending exactly while a reminder time is
    recorded.
  - The ordering and due-date display of `/list_timers`.
- `Tick` (`tick.dfy`): one run of `check_timers_task`.
  - It takes a snapshot of keys, each with the answer the channel's `send`
    gives, and the set of channels `get_channel` resolves.
  - `Evaluate` is the per-timer state machine.
  - `Run` is the sequential scan.
  - The lemmas cover what a tick can and cannot change, and when it saves.
- `Persistence` (`persistence.dfy`): the record mapping of `save_data` and
  `load_data`.
  - Timestamps become ISO text, and text the parser rejects loads as `None`.
  - Guild ids become decimal text.
  - Keys that are not integers are skipped.
  - The legacy per-timer `reminder_repeat_days` key is dropped.
- `Bot` (`bot.dfy`): the class `BotState`.
  - Its fields are `timers` and `reminderRepeatDays`.
  - Its methods update them in place as the command handlers, the tick and
    the load do, with the loops of the original.
  - `CreateTimer`, `DoneTimer`, `DeleteTimer` and `CheckTimers` are proved
    equal to the functions `Create`, `MarkDone`, `Delete` and `Run`, and keep
    the consistency invariant. Each command also returns the document it saves,
    on success only.
  - `SetReminderInterval` states its refusals and the new interval directly.
  - `SaveData` is proved equal to `Save`. `LoadData` is proved to build a
    table that `LoadedFrom` admits. It does not keep the invariant, because
    the loaded records may not satisfy it.

## Model

| member | source | states |
|---|---|---|
| Schedule.AddDays | maintenance_bot.py:224 | adding d days gives a result exactly when the sum stays within `datetime`'s range (otherwise OverflowError), and then it is that sum |
| Schedule.ParseUnit | maintenance_bot.py:139-143 | a unit is recognised exactly when it spells days, weeks or months in any letter case under `str.lower` |
| Schedule.CalculateNextDue | maintenance_bot.py:135-144 | unknown unit is refused (and only then); a zero value gives no date (falsy `timedelta`); a date is given exactly when the unit is known, the value is non-zero and start plus the interval is a representable datetime, and it is that sum, after start exactly when the value is positive; otherwise OutOfRange (OverflowError) |
| Schedule.NextDueIsStartPlusInterval | maintenance_bot.py:135-144 | for a positive value and any letter case of a unit, the due date is start + n, 7n or 30n days when representable, an overflow error otherwise, and always later than start |
| Schedule.StrfDelta | maintenance_bot.py:146-151 | days, hours, minutes, seconds are non-negative and in range; they add up to the whole seconds of a non-negative duration; for a negative one the days clamp to 0 and the rest is the wrapped time of day |
| Schedule.DueSince | maintenance_bot.py:402 | never negative; `now - next_due` once the due date has passed, 0 before |
| Decimal.IntToStringRoundTrip | maintenance_bot.py:105 | `int(str(n)) == n` for every integer guild id |
| Decimal.IntToStringInjective | maintenance_bot.py:66 | distinct guild ids get distinct keys in the data file |
| Decimal.BlankIsNotANumber | maintenance_bot.py:105 | an empty or blank guild key is rejected by `int()` |
| Decimal.IntToString | maintenance_bot.py:66 | `str(guild_id)`: a non-empty numeral, a digit or minus sign first and a digit last; `Decimal.IntToStringRoundTrip` and `Decimal.IntToStringInjective` give its meaning |
| Decimal.ParseInt | maintenance_bot.py:105 | `int()` on a guild key: accepts only non-empty text. What it accepts is characterised by `Decimal.ParseIntAcceptsOnlyNumerals` (only a numeral, optionally signed, with white space around it) and valued by `Decimal.IntToStringRoundTrip`, `Decimal.ParseIntSign`, `Decimal.ParseIntUnderscore` and `Decimal.ParseIntIgnoresSpace`; `Decimal.BlankIsNotANumber`, `Decimal.ParseIntRejectsDoubleUnderscore` and `Decimal.ParseIntRejectsTrailing` give rejections |
| Decimal.ParseIntAcceptsOnlyNumerals | maintenance_bot.py:105 | every text `int()` accepts is white space, then digits with single underscores between them (optionally after one `+` or `-`), then white space; anything else, such as "1a2", "_1", "--1" or "1 2", is rejected |
| Decimal.ParseIntIgnoresSpace | maintenance_bot.py:105 | for every text, white space added before and after it does not change what `int()` reads |
| Decimal.ParseIntSign | maintenance_bot.py:105 | for every unsigned numeral x (digits with single underscores between them), `int("+" + x)` is its value and `int("-" + x)` is minus its value |
| Decimal.ParseIntUnderscore | maintenance_bot.py:105 | for all non-empty digit runs a and b, `int(a + "_" + b)` equals `int(a + b)` |
| Decimal.ParseIntRejectsDoubleUnderscore | maintenance_bot.py:105 | every text with two underscores in a row is rejected |
| Decimal.ParseIntRejectsTrailing | maintenance_bot.py:105 | every text whose last character other than white space is not a digit is rejected, which includes a bare sign |
| Settings.PositiveOrDefault | maintenance_bot.py:19-37 | the setting is always positive: the parsed value when it is a positive integer, the default when absent, not an integer, or not positive |
| Timers.Create | maintenance_bot.py:273-308 | rejects a non-positive value, an unknown unit, a name taken in the guild and an unrepresentable due date; an unrepresentable due date is answered with that overflow error; every refusal leaves the table exactly as it was, except that an unrepresentable date in a new guild leaves that guild behind, empty (line 283); on success stores exactly the new timer (lower-cased unit, due now + interval, not pending, no reminder), the guilds become the old ones plus this one, and every other entry is kept |
| Timers.MarkDone | maintenance_bot.py:333-355 | missing and not-pending timers are refused with the table unchanged; otherwise the timer is rescheduled from now, stops being pending, loses its reminder time and keeps every other field; the guilds and every other entry are kept |
| Timers.Delete | maintenance_bot.py:439-453 | refused without permission or for a missing timer, with the table unchanged; otherwise removes exactly that timer, removes the guild exactly when it was its last timer, and keeps every other guild and entry |
| Timers.NamesUniquePerGuild | maintenance_bot.py:285-287 | after a successful create, the same name in the same guild is refused as a duplicate, and in another guild behaves as it did before |
| Timers.DeleteUndoesCreate | maintenance_bot.py:445-453 | when no guild of the table is empty, deleting a timer just created gives back the original table (an empty guild the create fills is removed with the timer) |
| Timers.MarkDoneForgetsOldDue | maintenance_bot.py:346 | the new cycle does not depend on the old due date |
| Timers.CommandsKeepConsistency | maintenance_bot.py:303-304 | create, done and delete keep every timer pending exactly while it has a reminder time |
| Timers.CommandsKeepGuildsNonEmpty | maintenance_bot.py:450-452 | done and delete never leave an empty guild, and create only on the overflow path |
| Timers.CreateCanLeaveEmptyGuild | maintenance_bot.py:282-293 | concrete case: creating a 999999999-day timer in an unknown guild fails and leaves that guild behind, empty |
| Timers.SortByDue | maintenance_bot.py:386 | the result is ordered by due date (undated last) and is a permutation of the input |
| Timers.SortByDueStable | maintenance_bot.py:386 | timers with equal keys keep their relative order, as Python's `sorted` does |
| Timers.Listing | maintenance_bot.py:378-386 | nothing to list exactly when the guild is absent or empty; otherwise every timer of the guild once, ordered by due date, undated ones last |
| Timers.DueDisplay | maintenance_bot.py:399-409 | "not set" exactly without a due date, "originally due" exactly while pending, "overdue" exactly when scheduled and past, otherwise the remaining time; every shown date is the timer's due date, and the shown days, hours, minutes and seconds are `strfdelta` of the time since the due date (pending) or of the time left |
| Tick.Evaluate | maintenance_bot.py:199-240 | skipped exactly when the channel does not resolve; a due notice is delivered exactly for a scheduled timer past its due date whose send succeeds; a repeat notice exactly for a pending timer whose last reminder is at least the interval ago and whose send succeeds |
| Tick.Advance | maintenance_bot.py:218-234 | only a delivered notice changes the timer: it becomes or stays pending, reminded now, other fields untouched |
| Tick.VisitOne | maintenance_bot.py:194-240 | a snapshot entry whose key is gone gives `Absent` and nothing else; otherwise the decision is `Evaluate` of the timer as it is now; without a delivered notice the table is unchanged, and with one exactly that timer advances |
| Tick.Run | maintenance_bot.py:192-197 | every snapshot entry gets a decision, in order |
| Tick.RunAdvances | maintenance_bot.py:192-240 | a tick adds or removes no timer, changes no field but the reminder state, and never takes a timer out of pending |
| Tick.RunKeepsConsistency | maintenance_bot.py:218-234 | a tick keeps every timer pending exactly while it has a reminder time |
| Tick.NoticeRaisesStage | maintenance_bot.py:209-234 | with a positive interval, a delivered notice moves a timer from scheduled or earlier-reminded to reminded now |
| Tick.UnsentVisitIsNoOp | maintenance_bot.py:197-240 | an entry that is absent, skipped, quiet or whose send raised leaves the table as if it had not been visited, and every other entry gets the same decision as in a tick without it, so a later due timer is still notified |
| Tick.RunWithoutNoticeUnchanged | maintenance_bot.py:190-242 | a tick that sent nothing leaves the table as it was |
| Tick.NoticeChangesTable | maintenance_bot.py:218-235 | with a positive interval, a tick that delivered a notice changed the table |
| Tick.SavedIffChanged | maintenance_bot.py:190-242 | with a positive interval, the tick saves exactly when the table changed |
| Tick.DueStep | maintenance_bot.py:209-220 | a due timer whose send succeeds becomes pending, reminded now |
| Tick.RepeatStep | maintenance_bot.py:223-235 | a pending timer whose repeat has come and whose send succeeds is reminded now and stays pending with its due date |
| Tick.CreatedTimerFallsDue | maintenance_bot.py:209-220 | a one-day timer created at t0 is due at t0 + 1 day, and a tick one second later notifies it and makes it pending |
| Persistence.DecodeStamp | maintenance_bot.py:110-121 | a stored timestamp loads as an instant exactly when it is ISO text, and as `None` when null or rejected |
| Persistence.EncodeStamp | maintenance_bot.py:69-72 | a datetime is written as text that loads back to it; `None` is written as null |
| Persistence.DecodeRecord | maintenance_bot.py:108-121 | a stored record loads as a timer whose timestamps are each read by `DecodeStamp` on their own (set exactly when they hold ISO text), with its pending flag and channel kept, and without the legacy key |
| Persistence.ResaveLoadedRecord | maintenance_bot.py:108-121 | saving a loaded record writes it back without its legacy key exactly when both timestamps were null or readable; a rejected timestamp is written back as null |
| Persistence.EncodeTimer | maintenance_bot.py:67-74 | a saved timer loads back unchanged, with no legacy repeat key, and absent timestamps stay absent |
| Persistence.EncodeTable | maintenance_bot.py:64-74 | every guild is stored under `str(guild_id)` with its saved timers, and nothing else is stored |
| Persistence.Save | maintenance_bot.py:75-78 | the document carries the current repeat interval |
| Persistence.LoadedPart | maintenance_bot.py:102-125 | after visiting some keys of the document: the guilds are exactly the integers those keys spell, each holding the loaded records of one key naming it |
| Persistence.LoadedFrom | maintenance_bot.py:102-125 | the tables `load_data` can build from a document, in any key order: `LoadedPart` once every key is visited |
| Persistence.LoadedGuilds | maintenance_bot.py:103-106 | the loaded guilds are exactly the integers that the document's keys spell |
| Persistence.LoadSaveRoundTrip | maintenance_bot.py:102-122 | loading what save wrote, in any key order, gives back exactly the saved table |
| Persistence.BadGuildKeySkipped | maintenance_bot.py:123-125 | a key that is not an integer drops only its own guild |
| Persistence.LoadDeterministic | maintenance_bot.py:103-122 | when no two keys name the same guild, the result does not depend on the visiting order |
| Bot.BotState.constructor | maintenance_bot.py:47-57 | no timers, and the repeat interval is the positive environment setting |
| Bot.BotState.CreateTimer | maintenance_bot.py:273-308 | the new table and reply are those of `Create`, consistency is kept, the interval is untouched; the saved document is returned exactly on success, and it is `Save` of the new state |
| Bot.BotState.DoneTimer | maintenance_bot.py:333-355 | the new table and reply are those of `MarkDone`, consistency is kept; the saved document is returned exactly on success, and it is `Save` of the new state |
| Bot.BotState.DeleteTimer | maintenance_bot.py:439-453 | the new table and reply are those of `Delete`, consistency is kept; the saved document is returned exactly on success, and it is `Save` of the new state |
| Bot.BotState.SetReminderInterval | maintenance_bot.py:477-487 | without permission or with a non-positive value nothing changes and the matching error is given; otherwise the interval becomes `days`, and the document saved carries it; timers are never touched |
| Bot.BotState.CheckTimers | maintenance_bot.py:186-242 | the loop's table and decisions are those of `Run`; it saves exactly when a notice was delivered, which with a positive interval is exactly when the table changed; consistency is kept |
| Bot.BotState.SaveGuild | maintenance_bot.py:67-74 | the inner loop writes the guild's saved records |
| Bot.BotState.LoadGuild | maintenance_bot.py:107-122 | the inner loop reads the guild's records back as timers |
| Bot.BotState.SaveData | maintenance_bot.py:60-78 | the nested loops build exactly the saved document of the current state |
| Bot.BotState.LoadData | maintenance_bot.py:87-133 | a missing or unreadable file empties the table and keeps the interval; a document sets the interval when it has one and loads its integer-keyed guilds, as `LoadedFrom` describes |
| Bot.BotState.SaveThenLoad | maintenance_bot.py:60-133 | saving and then loading the saved document restores the table and the interval |

## Left out

- Discord glue is not modelled: client setup, command registration and sync, `on_ready`, the error handler, embeds and message texts. Command replies are `Result` values instead of messages.
- The embed-length trimming loop of `/list_timers` (maintenance_bot.py:421-425) is not modelled, because it measures `str(embed.to_dict())` of a library object.
- `async`/`await` and `tasks.loop` scheduling are not modelled. A tick runs sequentially, with no command handler interleaved.
  - The snapshot of keys is an arbitrary input.
  - It may name absent keys, and it may name a key twice.
- `datetime.utcnow()` is the parameter `now`. `bot.get_channel` is the set `reachable` of resolvable channels. `channel.send` is the per-entry `SendResult` input.
- The permission checks (maintenance_bot.py:439, 477) are the boolean `canManage`. The "only in a server" guard is not modelled, since every modelled command takes a guild.
- File I/O and the JSON text layer are not modelled. Save and load map to and from the abstract `Document`; `DataFile` stands for "no file", "not JSON" or a document.
- The ISO 8601 grammar of `isoformat`/`fromisoformat` is abstracted by `StampText`: either the text written for an instant, or text the parser rejects.
- Time-zone-aware datetimes are not modelled.
- Persistence.DecodeStamp: an empty timestamp string is falsy and stays `""` in the source rather than becoming `None`. The model loads it as `None`, like other rejected text.
- Persistence.DecodeRecord: records with missing fields, or fields of other JSON types, are not modelled. Neither is the generic exception path at maintenance_bot.py:131-133 that they would take.
- Decimal.ParseInt: `int()` also accepts non-ASCII Unicode digits and other Unicode white space. The model accepts ASCII digits and ASCII or Latin-1 white space only.
- Bot.BotState.LoadData: the data file's guild keys are visited in an unspecified order. When two keys name the same integer, the one visited last wins, and `LoadedFrom` says only that the records of some such key are kept.
- Tick.SavedIffChanged: the statement needs a positive repeat interval. A non-positive value can only come from the data file (`set_reminder_interval` refuses it). With it, a repeat notice can rewrite the same reminder time, so the tick saves without a change.
- Persistence.Document: the `reminder_repeat_days` read back from the file (maintenance_bot.py:98) is an integer or absent in the model. In the source it can be any JSON value, such as null, a float or a string. With null, every repeat-time computation (maintenance_bot.py:224) raises TypeError, and that is not modelled.
- Logging and the "months are 30 days" warning are not modelled.
- `CHECK_INTERVAL_SECONDS` goes through the same rule as the repeat days; the `tasks.loop` period it configures is scheduling and not modelled.
- The bot-token check and `exit` are not modelled.

=== FILE: bot.dfy ===
/**
 * The bot's mutable state, the module-level `timers` and `global_settings`,
 * and the commands and tasks that update it in place.
 */
module Bot {
  import opened Wrappers
  import opened Decimal
  import opened Schedule
  import opened Settings
  import opened Timers
  import opened Tick
  import opened Persistence

  class BotState {
    /** Guild id to timer name to timer. */
    var timers: Table
    /** `global_settings["reminder_repeat_days"]`. */
    var reminderRepeatDays: int

    /** Start-up: no timers yet, and the repeat interval from REMINDER_REPEAT_DAYS (`envDays`). */
    constructor (envDays: Option<string>)
      ensures timers == map[]
      ensures reminderRepeatDays == PositiveOrDefault(envDays, DefaultReminderDays)
      ensures reminderRepeatDays > 0
    {
      timers := map[];
      reminderRepeatDays := PositiveOrDefault(envDays, DefaultReminderDays);
    }

    /**
     * `/create`: checks the value and unit, makes room for the guild, then
     * checks the name and schedules. `written` is the document `save_data`
     * writes, only on success: the empty guild the overflow path leaves is
     * not saved.
     */
    method CreateTimer(guild: GuildId, name: string, value: int, unit: string, owner: string,
                       description: string, channel: ChannelId, now: Instant)
      returns (reply: Result<Timer, Rejection>, written: Option<Document>)
      modifies this
      ensures reminderRepeatDays == old(reminderRepeatDays)
      ensures Update(timers, reply) == Create(old(timers), guild, name, value, unit, owner, description, channel, now)
      ensures AllConsistent(old(timers)) ==> AllConsistent(timers)
      ensures written.Some? <==> reply.Ok?
      ensures written.Some? ==> written.value == Save(timers, reminderRepeatDays)
    {
      if AllConsistent(timers) {
        CommandsKeepConsistency(timers, guild, name, value, unit, owner, description, channel, now, true);
      }
      if value <= 0 {
        return Err(NotPositive), None;
      }
      var parsed := ParseUnit(unit);
      if parsed.None? {
        return Err(UnknownUnit), None;
      }
      if guild !in timers {
        timers := timers[guild := map[]];
      }
      if name in timers[guild] {
        return Err(DuplicateName), None;
      }
      var due := CalculateNextDue(value, unit, now);
      if due.Err? {
        return Err(Unschedulable(due.error)), None;
      }
      var t := Timer(name, value, UnitName(parsed.value), description, owner, channel, Some(due.value), false, None);
      timers := timers[guild := timers[guild][name := t]];
      var doc := SaveData();
      return Ok(t), Some(doc);
    }

    /**
     * `/done`: a pending timer is rescheduled from `now` and stops being
     * pending; `written` is the document saved on success.
     */
    method DoneTimer(guild: GuildId, name: string, now: Instant)
      returns (reply: Result<Timer, Rejection>, written: Option<Document>)
      modifies this
      ensures reminderRepeatDays == old(reminderRepeatDays)
      ensures Update(timers, reply) == MarkDone(old(timers), guild, name, now)
      ensures AllConsistent(old(timers)) ==> AllConsistent(timers)
      ensures written.Some? <==> reply.Ok?
      ensures written.Some? ==> written.value == Save(timers, reminderRepeatDays)
    {
      if AllConsistent(timers) {
        CommandsKeepConsistency(timers, guild, name, 1, "days", "", "", 0, now, true);
      }
      if guild !in timers || name !in timers[guild] {
        return Err(NotFound), None;
      }
      var t := timers[guild][name];
      if !t.isPending {
        return Err(NotPending), None;
      }
      var due := CalculateNextDue(t.intervalValue, t.intervalUnit, now);
      if due.Err? {
        return Err(Unschedulable(due.error)), None;
      }
      t := t.(isPending := false, lastReminded := None, nextDue := Some(due.value));
      timers := timers[guild := timers[guild][name := t]];
      var doc := SaveData();
      return Ok(t), Some(doc);
    }

    /**
     * `/delete`: needs the Manage Server permission; an emptied guild is
     * removed; `written` is the document saved on success.
     */
    method DeleteTimer(guild: GuildId, name: string, canManage: bool)
      returns (reply: Result<(), Rejection>, written: Option<Document>)
      modifies this
      ensures reminderRepeatDays == old(reminderRepeatDays)
      ensures Update(timers, reply) == Delete(old(timers), guild, name, canManage)
      ensures AllConsistent(old(timers)) ==> AllConsistent(timers)
      ensures written.Some? <==> reply.Ok?
      ensures written.Some? ==> written.value == Save(timers, reminderRepeatDays)
    {
      if AllConsistent(timers) {
        CommandsKeepConsistency(timers, guild, name, 1, "days", "", "", 0, 0, canManage);
      }
      if !canManage {
        return Err(NoPermission), None;
      }
      if guild !in timers || name !in timers[guild] {
        return Err(NotFound), None;
      }
      ghost var expected := Delete(timers, guild, name, canManage);
      timers := timers[guild := timers[guild] - {name}];
      if timers[guild] == map[] {
        timers := timers - {guild};
      }
      assert Update(timers, Ok(())) == expected;
      var doc := SaveData();
      return Ok(()), Some(doc);
    }

    /**
     * `/set_reminder_interval`: needs the Manage Server permission and a
     * positive number of days; `written` is the document saved on success.
     */
    method SetReminderInterval(days: int, canManage: bool)
      returns (reply: Result<int, Rejection>, written: Option<Document>)
      modifies this
      ensures timers == old(timers)
      ensures !canManage ==> reply == Err(NoPermission)
      ensures canManage && days <= 0 ==> reply == Err(NotPositive)
      ensures reply.Ok? <==> canManage && days > 0
      ensures reply.Ok? ==> reply.value == days && reminderRepeatDays == days
      ensures reply.Err? ==> reminderRepeatDays == old(reminderRepeatDays)
      ensures written.Some? <==> reply.Ok?
      ensures written.Some? ==> written.value == Save(timers, days)
    {
      if !canManage {
        return Err(NoPermission), None;
      }
      if days <= 0 {
        return Err(NotPositive), None;
      }
      reminderRepeatDays := days;
      var doc := SaveData();
      return Ok(days), Some(doc);
    }

    /**
     * One run of `check_timers_task` at `now` over the key snapshot `visits`,
     * with `reachable` the channels `get_channel` resolves. `saved` tells
     * whether the run ends by saving.
     */
    method CheckTimers(now: Instant, visits: seq<Visit>, reachable: set<ChannelId>) returns (checks: seq<Check>, saved: bool)
      modifies this
      ensures reminderRepeatDays == old(reminderRepeatDays)
      ensures Pass(timers, checks) == Run(old(timers), visits, now, reminderRepeatDays, reachable)
      ensures saved <==> exists j :: 0 <= j < |checks| && checks[j].Notified?
      ensures reminderRepeatDays > 0 ==> (saved <==> timers != old(timers))
      ensures AllConsistent(old(timers)) ==> AllConsistent(timers)
    {
      var repeatDays := reminderRepeatDays;
      checks, saved := [], false;
      var i := 0;
      while i < |visits|
        invariant 0 <= i <= |visits|
        invariant reminderRepeatDays == repeatDays
        invariant Pass(timers, checks) == Run(old(timers), visits[..i], now, repeatDays, reachable)
        invariant saved <==> exists j :: 0 <= j < |checks| && checks[j].Notified?
      {
        RunPrefixStep(old(timers), visits, i, now, repeatDays, reachable);
        ghost var before := timers;
        var g, n := visits[i].key.guild, visits[i].key.name;
        var c: Check;
        if g !in timers || n !in timers[g] {
          c := Absent;
        } else {
          var t := timers[g][n];
          if t.channelId !in reachable {
            c := NoChannel;
          } else if !t.isPending && t.nextDue.Some? && now >= t.nextDue.value {
            if visits[i].send == Delivered {
              timers := timers[g := timers[g][n := t.(isPending := true, lastReminded := Some(now))]];
              saved := true;
              c := Notified(DueNotice);
            } else {
              c := SendRaised(DueNotice, visits[i].send);
            }
          } else if t.isPending && t.lastReminded.Some? {
            var nextReminder := AddDays(t.lastReminded.value, repeatDays);
            if nextReminder.None? {
              c := RepeatTimeInvalid;
            } else if now >= nextReminder.value {
              if visits[i].send == Delivered {
                timers := timers[g := timers[g][n := t.(lastReminded := Some(now))]];
                saved := true;
                c := Notified(RepeatNotice);
              } else {
                c := SendRaised(RepeatNotice, visits[i].send);
              }
            } else {
              c := Quiet;
            }
          } else {
            c := Quiet;
          }
        }
        assert (timers, c) == VisitOne(before, visits[i], now, repeatDays, reachable);
        assert forall j :: 0 <= j < |checks| ==> (checks + [c])[j] == checks[j];
        assert (checks + [c])[|checks|] == c;
        checks := checks + [c];
        i := i + 1;
      }
      assert visits[..i] == visits;
      if AllConsistent(old(timers)) {
        RunKeepsConsistency(old(timers), visits, now, repeatDays, reachable);
      }
      if repeatDays > 0 {
        SavedIffChanged(old(timers), visits, now, repeatDays, reachable);
      }
    }

    /** The inner loop of `save_data`: one guild's timers as records. */
    static method SaveGuild(m: map<string, Timer>) returns (block: map<string, Record>)
      ensures block == EncodeGuild(m)
    {
      block := map[];
      var names := m.Keys;
      while names != {}
        invariant names <= m.Keys
        invariant block == map n | n in m && n !in names :: EncodeTimer(m[n])
        decreases names
      {
        var n :| n in names;
        block := block[n := EncodeTimer(m[n])];
        names := names - {n};
      }
    }

    /** The inner loop of `load_data`: one guild's records as timers. */
    static method LoadGuild(records: map<string, Record>) returns (block: map<string, Timer>)
      ensures block == DecodeGuild(records)
    {
      block := map[];
      var names := records.Keys;
      while names != {}
        invariant names <= records.Keys
        invariant block == map n | n in records && n !in names :: DecodeRecord(records[n])
        decreases names
      {
        var n :| n in names;
        block := block[n := DecodeRecord(records[n])];
        names := names - {n};
      }
    }

    /** `save_data`: the document written for the current state. */
    method SaveData() returns (doc: Document)
      ensures doc == Save(timers, reminderRepeatDays)
    {
      var out: map<string, map<string, Record>> := map[];
      var todo := timers.Keys;
      ghost var done: set<GuildId> := {};
      while todo != {}
        invariant todo <= timers.Keys && done == timers.Keys - todo
        invariant forall g :: g in done ==> IntToString(g) in out && out[IntToString(g)] == EncodeGuild(timers[g])
        invariant forall k :: k in out ==> exists g :: g in done && k == IntToString(g)
        decreases todo
      {
        // The verifier does not find an element of a non-empty set of
        // integers for `:|` unaided; this dead branch supplies the witness.
        if forall h :: h !in todo {
          assert false;
        }
        var g :| g in todo;
        var block := SaveGuild(timers[g]);
        IntToStringInjective();
        out := out[IntToString(g) := block];
        todo, done := todo - {g}, done + {g};
      }
      EncodeTableCharacterized(timers, out);
      doc := Document(Some(reminderRepeatDays), out);
    }

    /**
     * `load_data` from what reading the data file gave: the repeat interval
     * when the document has one, and the guilds whose key is an integer.
     */
    method LoadData(file: DataFile)
      modifies this
      ensures !file.Parsed? ==> timers == map[] && reminderRepeatDays == old(reminderRepeatDays)
      ensures file.Parsed? ==>
        && reminderRepeatDays == file.doc.repeatDays.GetOr(old(reminderRepeatDays))
        && LoadedFrom(file.doc.timers, timers)
    {
      if !file.Parsed? {
        timers := map[];
        return;
      }
      var doc := file.doc;
      reminderRepeatDays := doc.repeatDays.GetOr(reminderRepeatDays);
      timers := map[];
      var todo := doc.timers.Keys;
      ghost var done: set<string> := {};
      while todo != {}
        invariant done + todo == doc.timers.Keys && done !! todo
        invariant reminderRepeatDays == doc.repeatDays.GetOr(old(reminderRepeatDays))
        invariant LoadedPart(doc.timers, done, timers)
        decreases todo
      {
        var key :| key in todo;
        var id := ParseInt(key);
        if id.Some? {
          var block := LoadGuild(doc.timers[key]);
          LoadStep(doc.timers, done, timers, key, id.value);
          timers := timers[id.value := block];
        } else {
          LoadSkip(doc.timers, done, timers, key);
        }
        todo, done := todo - {key}, done + {key};
      }
    }

    /** A restart right after a save: `load_data` on the saved document restores the same state. */
    method SaveThenLoad()
      modifies this
      ensures timers == old(timers) && reminderRepeatDays == old(reminderRepeatDays)
    {
      var doc := SaveData();
      LoadData(Parsed(doc));
      LoadSaveRoundTrip(old(timers), timers);
    }
  }
}

=== FILE: decimal.dfy ===
/**
 * Decimal text of integers: Python's `str(int)`, and the part of `int(str)` that
 * guild keys of the data file and the numeric environment settings go through.
 */
module Decimal {
  import opened Wrappers

  predicate IsDigit(c: char) { '0' <= c <= '9' }

  /** The characters `int()` strips around its argument (ASCII and Latin-1 white space). */
  predicate IsSpace(c: char) {
    c == ' ' || ('\t' <= c <= '\r') || ('\U{1C}' <= c <= '\U{1F}') || c == '\U{85}' || c == '\U{A0}'
  }

  function DigitChar(d: int): (c: char)
    requires 0 <= d < 10
    ensures IsDigit(c)
  {
    ('0' as int + d) as char
  }

  function DigitValue(c: char): (d: int)
    requires IsDigit(c)
    ensures 0 <= d < 10 && DigitChar(d) == c
  {
    c as int - '0' as int
  }

  predicate AllDigits(s: string) { forall i :: 0 <= i < |s| ==> IsDigit(s[i]) }

  /** The value of a string of decimal digits, most significant first. */
  function DigitsValue(s: string): nat
    requires AllDigits(s)
  {
    if s == [] then 0 else DigitsValue(s[..|s| - 1]) * 10 + DigitValue(s[|s| - 1])
  }

  /** `str(n)` for n >= 0: the shortest digit string of n. */
  function NatToString(n: nat): (s: string)
    ensures |s| > 0 && AllDigits(s)
    ensures |s| > 1 ==> s[0] != '0'
  {
    if n < 10 then [DigitChar(n)] else NatToString(n / 10) + [DigitChar(n % 10)]
  }

  /** `str(n)`: a minus sign before the digits of a negative number. */
  function IntToString(n: int): (s: string)
    ensures |s| > 0 && (IsDigit(s[0]) || s[0] == '-') && IsDigit(s[|s| - 1])
  {
    if n < 0 then "-" + NatToString(-n) else NatToString(n)
  }

  function TrimStart(s: string): (r: string)
    ensures |r| <= |s| && (r == [] || !IsSpace(r[0]))
  {
    if |s| > 0 && IsSpace(s[0]) then TrimStart(s[1..]) else s
  }

  function TrimEnd(s: string): (r: string)
    ensures |r| <= |s| && (r == [] || !IsSpace(r[|r| - 1]))
  {
    if |s| > 0 && IsSpace(s[|s| - 1]) then TrimEnd(s[..|s| - 1]) else s
  }

  /** Digits, where every underscore sits between two digits (`1_000`). */
  predicate WellFormedDigits(s: string) {
    && |s| > 0
    && IsDigit(s[0])
    && DigitsOrUnderscores(s)
    && forall i :: 0 <= i < |s| && s[i] == '_' ==> i + 1 < |s| && IsDigit(s[i + 1])
  }

  predicate DigitsOrUnderscores(s: string) { forall i :: 0 <= i < |s| ==> IsDigit(s[i]) || s[i] == '_' }

  function DropUnderscores(s: string): (r: string)
    requires DigitsOrUnderscores(s)
    ensures AllDigits(r)
  {
    if s == [] then []
    else if s[0] == '_' then DropUnderscores(s[1..])
    else [s[0]] + DropUnderscores(s[1..])
  }

  /**
   * `int(s)`: surrounding white space is ignored, an optional sign, then digits
   * with single underscores between them; anything else raises ValueError (None).
   */
  function ParseInt(s: string): (r: Option<int>)
    ensures r.Some? ==> |s| > 0
  {
    var t := TrimEnd(TrimStart(s));
    var negative := |t| > 0 && t[0] == '-';
    var body := if |t| > 0 && (t[0] == '-' || t[0] == '+') then t[1..] else t;
    if WellFormedDigits(body) then
      var magnitude := Magnitude(body);
      Some(if negative then -magnitude else magnitude)
    else None
  }

  /** `int()` ignores white space around the number. */
  lemma ParseIntIgnoresSpace(pre: string, s: string, post: string)
    requires forall i :: 0 <= i < |pre| ==> IsSpace(pre[i])
    requires forall i :: 0 <= i < |post| ==> IsSpace(post[i])
    ensures ParseInt(pre + s + post) == ParseInt(s)
  {
    assert pre + s + post == pre + (s + post);
    TrimStartSpaces(pre, s + post);
    if TrimStart(s) == [] {
      TrimStartBlankAppend(s, post);
    } else {
      TrimStartAppend(s, post);
      TrimEndSpaces(TrimStart(s), post);
    }
    SameTrimmedText(pre + s + post, s);
  }

  /** `int()` looks only at the text left after trimming. */
  lemma SameTrimmedText(a: string, b: string)
    requires TrimEnd(TrimStart(a)) == TrimEnd(TrimStart(b))
    ensures ParseInt(a) == ParseInt(b)
  {
  }

  lemma {:induction false} TrimStartSpaces(pre: string, x: string)
    requires forall i :: 0 <= i < |pre| ==> IsSpace(pre[i])
    ensures TrimStart(pre + x) == TrimStart(x)
  {
    if pre != [] {
      assert (pre + x)[0] == pre[0] && (pre + x)[1..] == pre[1..] + x;
      TrimStartSpaces(pre[1..], x);
    } else {
      assert pre + x == x;
    }
  }

  lemma {:induction false} TrimStartAppend(s: string, post: string)
    requires TrimStart(s) != []
    ensures TrimStart(s + post) == TrimStart(s) + post
  {
    assert (s + post)[0] == s[0];
    if IsSpace(s[0]) {
      assert (s + post)[1..] == s[1..] + post;
      TrimStartAppend(s[1..], post);
    }
  }

  lemma {:induction false} TrimStartBlankAppend(s: string, post: string)
    requires TrimStart(s) == []
    requires forall i :: 0 <= i < |post| ==> IsSpace(post[i])
    ensures TrimStart(s + post) == []
  {
    if s == [] {
      assert s + post == post;
      BlankTrimsToEmpty(post);
    } else {
      assert (s + post)[0] == s[0] && (s + post)[1..] == s[1..] + post;
      TrimStartBlankAppend(s[1..], post);
    }
  }

  lemma {:induction false} TrimEndSpaces(x: string, post: string)
    requires forall i :: 0 <= i < |post| ==> IsSpace(post[i])
    ensures TrimEnd(x + post) == TrimEnd(x)
  {
    if post != [] {
      var last := |post| - 1;
      assert (x + post)[|x + post| - 1] == post[last];
      assert (x + post)[..|x + post| - 1] == x + post[..last];
      TrimEndSpaces(x, post[..last]);
    } else {
      assert x + post == x;
    }
  }

  /** A sign before an unsigned numeral: `+` keeps its value and `-` negates it. */
  lemma ParseIntSign(sign: char, x: string)
    requires (sign == '+' || sign == '-') && WellFormedDigits(x)
    ensures ParseInt([sign] + x) == Some(if sign == '-' then -Magnitude(x) else Magnitude(x))
  {
    var t := [sign] + x;
    assert IsDigit(x[|x| - 1]);
    assert t[0] == sign && t[1..] == x && t[|t| - 1] == x[|x| - 1];
    assert !IsSpace(sign) && !IsSpace(x[|x| - 1]);
    assert TrimStart(t) == t;
    assert TrimEnd(t) == t;
  }

  /** An underscore between two runs of digits is ignored. */
  lemma ParseIntUnderscore(a: string, b: string)
    requires |a| > 0 && |b| > 0 && AllDigits(a) && AllDigits(b)
    ensures ParseInt(a + "_" + b) == ParseInt(a + b)
  {
    var x, y := a + "_" + b, a + b;
    UnderscoreJoin(a, b);
    assert y[0] == a[0] && y[|y| - 1] == b[|b| - 1];
    assert AllDigits(y);
    DropUnderscoresOfDigits(y);
    UnsignedParse(x);
    UnsignedParse(y);
  }

  lemma UnderscoreJoin(a: string, b: string)
    requires |a| > 0 && |b| > 0 && AllDigits(a) && AllDigits(b)
    ensures var x := a + "_" + b;
      && x[0] == a[0] && x[|x| - 1] == b[|b| - 1]
      && WellFormedDigits(x) && DropUnderscores(x) == a + b
  {
    var x := a + "_" + b;
    assert DigitsOrUnderscores(x);
    forall i | 0 <= i < |x| && x[i] == '_' ensures i + 1 < |x| && IsDigit(x[i + 1]) {
      assert i == |a|;
      assert x[i + 1] == b[0];
    }
    assert x == a + ("_" + b);
    DropUnderscoresAppend(a, "_" + b);
    assert ("_" + b)[1..] == b;
    DropUnderscoresOfDigits(a);
    DropUnderscoresOfDigits(b);
  }

  /** The value of digits with underscores. */
  function Magnitude(x: string): int
    requires DigitsOrUnderscores(x)
  {
    DigitsValue(DropUnderscores(x))
  }

  /** Unsigned text with no white space around it reads as its digits. */
  lemma UnsignedParse(x: string)
    requires WellFormedDigits(x)
    ensures ParseInt(x) == Some(Magnitude(x))
  {
    assert IsDigit(x[|x| - 1]);
    assert TrimStart(x) == x;
    assert TrimEnd(x) == x;
  }

  lemma {:induction false} DropUnderscoresAppend(x: string, y: string)
    requires DigitsOrUnderscores(x) && DigitsOrUnderscores(y)
    ensures DigitsOrUnderscores(x + y)
    ensures DropUnderscores(x + y) == DropUnderscores(x) + DropUnderscores(y)
  {
    if x != [] {
      assert (x + y)[0] == x[0] && (x + y)[1..] == x[1..] + y;
      DropUnderscoresAppend(x[1..], y);
    } else {
      assert x + y == y;
    }
  }

  /** Trimming white space at the front leaves a suffix. */
  lemma {:induction false} TrimStartIsSuffix(s: string) returns (k: nat)
    ensures k <= |s| && TrimStart(s) == s[k..]
    ensures forall j :: 0 <= j < k ==> IsSpace(s[j])
  {
    if |s| > 0 && IsSpace(s[0]) {
      var k' := TrimStartIsSuffix(s[1..]);
      k := k' + 1;
      assert s[1..][k'..] == s[k..];
      forall j | 0 < j < k ensures IsSpace(s[j]) {
        assert s[1..][j - 1] == s[j];
      }
    } else {
      k := 0;
    }
  }

  /** Trimming white space at the end leaves a prefix. */
  lemma {:induction false} TrimEndIsPrefix(s: string) returns (m: nat)
    ensures m <= |s| && TrimEnd(s) == s[..m]
    ensures forall j :: m <= j < |s| ==> IsSpace(s[j])
  {
    if |s| > 0 && IsSpace(s[|s| - 1]) {
      m := TrimEndIsPrefix(s[..|s| - 1]);
      assert s[..|s| - 1][..m] == s[..m];
      forall j | m <= j < |s| - 1 ensures IsSpace(s[j]) {
        assert s[..|s| - 1][j] == s[j];
      }
    } else {
      m := |s|;
      assert s[..m] == s;
    }
  }

  /** The text `int()` reads once white space is trimmed: the slice s[k..k+m]. */
  lemma TrimmedSlice(s: string) returns (k: nat, m: nat)
    ensures k + m <= |s| && TrimEnd(TrimStart(s)) == s[k..k + m]
    ensures forall j :: 0 <= j < k ==> IsSpace(s[j])
    ensures forall j :: k + m <= j < |s| ==> IsSpace(s[j])
  {
    k := TrimStartIsSuffix(s);
    m := TrimEndIsPrefix(s[k..]);
    assert s[k..][..m] == s[k..k + m];
    forall j | k + m <= j < |s| ensures IsSpace(s[j]) {
      assert s[k..][j - k] == s[j];
    }
  }

  /**
   * The other direction: every text `int()` accepts is a numeral, possibly
   * signed, with only white space around it.
   */
  lemma ParseIntAcceptsOnlyNumerals(s: string) returns (k: nat, m: nat)
    requires ParseInt(s).Some?
    ensures k + m <= |s|
    ensures forall j :: 0 <= j < k ==> IsSpace(s[j])
    ensures forall j :: k + m <= j < |s| ==> IsSpace(s[j])
    ensures var t := s[k..k + m];
      || WellFormedDigits(t)
      || (|t| > 0 && (t[0] == '+' || t[0] == '-') && WellFormedDigits(t[1..]))
  {
    k, m := TrimmedSlice(s);
  }

  /** Two underscores in a row are rejected. */
  lemma ParseIntRejectsDoubleUnderscore(s: string, i: nat)
    requires i + 1 < |s| && s[i] == '_' && s[i + 1] == '_'
    ensures ParseInt(s) == None
  {
    var k, m := TrimmedSlice(s);
    var t := TrimEnd(TrimStart(s));
    assert !IsSpace(s[i]) && !IsSpace(s[i + 1]);
    assert k <= i && i + 1 < k + m;
    assert t[i - k] == '_' && t[i - k + 1] == '_';
    var body := if |t| > 0 && (t[0] == '-' || t[0] == '+') then t[1..] else t;
    var p := if |t| > 0 && (t[0] == '-' || t[0] == '+') then i - k - 1 else i - k;
    assert 0 <= p && p + 1 < |body| && body[p] == '_' && body[p + 1] == '_';
    assert !WellFormedDigits(body);
  }

  /** Text whose last character other than white space is not a digit is rejected. */
  lemma ParseIntRejectsTrailing(s: string, j: nat)
    requires j < |s| && !IsDigit(s[j]) && !IsSpace(s[j])
    requires forall i :: j < i < |s| ==> IsSpace(s[i])
    ensures ParseInt(s) == None
  {
    var k, m := TrimmedSlice(s);
    var t := TrimEnd(TrimStart(s));
    assert k <= j < k + m;
    assert t != [] && !IsSpace(t[|t| - 1]);
    assert k + m - 1 == j;
    var body := if |t| > 0 && (t[0] == '-' || t[0] == '+') then t[1..] else t;
    if body != [] {
      assert body[|body| - 1] == s[j];
    }
    assert !WellFormedDigits(body);
  }

  lemma {:induction false} NatToStringValue(n: nat)
    ensures DigitsValue(NatToString(n)) == n
    decreases n
  {
    if n >= 10 {
      NatToStringValue(n / 10);
      var s := NatToString(n);
      assert s[..|s| - 1] == NatToString(n / 10);
    }
  }

  lemma {:induction false} DropUnderscoresOfDigits(s: string)
    requires AllDigits(s)
    ensures DropUnderscores(s) == s
  {
    if s != [] {
      DropUnderscoresOfDigits(s[1..]);
    }
  }

  /** Reading back `str(n)` with `int()` gives n: guild ids survive the data file. */
  lemma IntToStringRoundTrip(n: int)
    ensures ParseInt(IntToString(n)) == Some(n)
  {
    var s := IntToString(n);
    var m: nat := if n < 0 then -n else n;
    var digits := NatToString(m);
    assert TrimStart(s) == s;
    assert TrimEnd(s) == s;
    assert WellFormedDigits(digits);
    DropUnderscoresOfDigits(digits);
    NatToStringValue(m);
    if n < 0 {
      assert s[0] == '-' && s[1..] == digits;
    } else {
      assert s == digits && s[0] != '-' && s[0] != '+';
    }
  }

  /** Distinct integers print differently. */
  lemma IntToStringInjective()
    ensures forall a, b :: IntToString(a) == IntToString(b) ==> a == b
  {
    forall a, b | IntToString(a) == IntToString(b)
      ensures a == b
    {
      IntToStringRoundTrip(a);
      IntToStringRoundTrip(b);
    }
  }

  /** Text that is not a number, such as an empty or blank string, is rejected. */
  lemma {:induction false} BlankIsNotANumber(s: string)
    requires forall i :: 0 <= i < |s| ==> IsSpace(s[i])
    ensures ParseInt(s) == None
  {
    BlankTrimsToEmpty(s);
  }

  lemma {:induction false} BlankTrimsToEmpty(s: string)
    requires forall i :: 0 <= i < |s| ==> IsSpace(s[i])
    ensures TrimStart(s) == []
  {
    if |s| > 0 {
      BlankTrimsToEmpty(s[1..]);
    }
  }
}

=== FILE: persistence.dfy ===
/**
 * The record mapping of `save_data` and `load_data`: guild ids as decimal
 * text, timestamps as ISO text, and the legacy per-timer
 * `reminder_repeat_days` key dropped in both directions.
 */
module Persistence {
  import opened Wrappers
  import opened Decimal
  import opened Schedule
  import opened Timers

  /**
   * A timestamp's text in the data file. The ISO 8601 grammar is not
   * modelled: a text either is what `isoformat` wrote for an instant, or is
   * something `fromisoformat` rejects (including the empty string).
   */
  datatype StampText = Iso(instant: Instant) | Unparseable(raw: string)

  /** A timestamp field of the data file: JSON null or a string. */
  datatype Stamp = Null | Text(text: StampText)

  /** One timer as the data file stores it. */
  datatype Record = Record(
    name: string,
    intervalValue: int,
    intervalUnit: string,
    description: string,
    owner: string,
    channelId: ChannelId,
    nextDue: Stamp,
    isPending: bool,
    lastReminded: Stamp,
    legacyRepeatDays: Option<int>)

  /** The data file: the global settings and the timers keyed by guild id text, then by name. */
  datatype Document = Document(repeatDays: Option<int>, timers: map<string, map<string, Record>>)

  /** What reading the data file gives: no file, a file `json.load` rejects, or a document. */
  datatype DataFile = Missing | Unreadable | Parsed(doc: Document)

  /** How load reads a timestamp: null or a rejected text becomes None. */
  function DecodeStamp(s: Stamp): (r: Option<Instant>)
    ensures r.Some? <==> s.Text? && s.text.Iso?
    ensures r.Some? ==> r.value == s.text.instant
  {
    match s
    case Null => None
    case Text(Iso(t)) => Some(t)
    case Text(Unparseable(_)) => None
  }

  function EncodeStamp(t: Option<Instant>): (s: Stamp)
    ensures DecodeStamp(s) == t
    ensures t.None? <==> s == Null
  {
    match t
    case None => Null
    case Some(i) => Text(Iso(i))
  }

  /**
   * A loaded record, whatever legacy key it carried: the timestamps load as
   * instants exactly when they hold ISO text.
   */
  function DecodeRecord(r: Record): (t: Timer)
    ensures t.nextDue.Some? <==> r.nextDue.Text? && r.nextDue.text.Iso?
    ensures t.lastReminded.Some? <==> r.lastReminded.Text? && r.lastReminded.text.Iso?
    ensures t.isPending == r.isPending && t.channelId == r.channelId
    ensures t.nextDue == DecodeStamp(r.nextDue) && t.lastReminded == DecodeStamp(r.lastReminded)
  {
    Timer(r.name, r.intervalValue, r.intervalUnit, r.description, r.owner, r.channelId,
          DecodeStamp(r.nextDue), r.isPending, DecodeStamp(r.lastReminded))
  }

  /** A saved timer: reading it back gives the same timer, and no legacy key is written. */
  function EncodeTimer(t: Timer): (r: Record)
    ensures DecodeRecord(r) == t
    ensures r.legacyRepeatDays == None
    ensures r.nextDue == Null <==> t.nextDue.None?
    ensures r.lastReminded == Null <==> t.lastReminded.None?
  {
    Record(t.name, t.intervalValue, t.intervalUnit, t.description, t.owner, t.channelId,
           EncodeStamp(t.nextDue), t.isPending, EncodeStamp(t.lastReminded), None)
  }

  /** A timestamp field that loads back as itself: null or ISO text. */
  predicate Readable(s: Stamp) { s.Null? || s.text.Iso? }

  /**
   * Saving a loaded record writes it back without its legacy key, provided
   * its timestamps were readable; a rejected timestamp is written as null.
   */
  lemma ResaveLoadedRecord(r: Record)
    ensures Readable(r.nextDue) && Readable(r.lastReminded) <==>
      EncodeTimer(DecodeRecord(r)) == r.(legacyRepeatDays := None)
    ensures !Readable(r.nextDue) ==> EncodeTimer(DecodeRecord(r)).nextDue == Null
    ensures !Readable(r.lastReminded) ==> EncodeTimer(DecodeRecord(r)).lastReminded == Null
  {
  }

  function EncodeGuild(m: map<string, Timer>): map<string, Record> {
    map n | n in m :: EncodeTimer(m[n])
  }

  function DecodeGuild(m: map<string, Record>): map<string, Timer> {
    map n | n in m :: DecodeRecord(m[n])
  }

  /** The `timers` part of the file `save_data` writes: each guild under `str(guild_id)`. */
  function EncodeTable(ts: Table): (d: map<string, map<string, Record>>)
    ensures forall g :: g in ts ==> IntToString(g) in d && d[IntToString(g)] == EncodeGuild(ts[g])
    ensures forall k :: k in d ==> exists g :: g in ts && k == IntToString(g)
  {
    IntToStringInjective();
    map g | g in ts :: IntToString(g) := EncodeGuild(ts[g])
  }

  /** The whole document `save_data` writes. */
  function Save(ts: Table, repeatDays: int): (d: Document)
    ensures d.repeatDays == Some(repeatDays)
  {
    Document(Some(repeatDays), EncodeTable(ts))
  }

  /** A map built guild by guild is the saved table once it agrees with it on every key. */
  lemma EncodeTableCharacterized(ts: Table, out: map<string, map<string, Record>>)
    requires forall g :: g in ts ==> IntToString(g) in out && out[IntToString(g)] == EncodeGuild(ts[g])
    requires forall k :: k in out ==> exists g :: g in ts && k == IntToString(g)
    ensures out == EncodeTable(ts)
  {
    var d := EncodeTable(ts);
    forall k | k in out ensures k in d && out[k] == d[k] {
      var g :| g in ts && k == IntToString(g);
    }
    forall k | k in d ensures k in out {
      var g :| g in ts && k == IntToString(g);
    }
  }

  /**
   * `r` holds what load_data has built after visiting the keys `done` of `d`
   * in some order: the guilds whose key `int()` accepts, each with the
   * records of one key naming it (the last one visited).
   */
  ghost predicate LoadedPart(d: map<string, map<string, Record>>, done: set<string>, r: Table) {
    && (forall g :: g in r <==> exists k :: k in done && k in d && ParseInt(k) == Some(g))
    && (forall g :: g in r ==> exists k :: k in done && k in d && ParseInt(k) == Some(g) && r[g] == DecodeGuild(d[k]))
  }

  /** `r` is a table load_data can build from the `timers` part `d` of a document. */
  ghost predicate LoadedFrom(d: map<string, map<string, Record>>, r: Table) {
    LoadedPart(d, d.Keys, r)
  }

  /** The guild ids that the keys of `d` spell. */
  function SpelledGuilds(d: map<string, map<string, Record>>): (ids: set<GuildId>)
    ensures forall g :: g in ids <==> exists k :: k in d && ParseInt(k) == Some(g)
  {
    set k | k in d && ParseInt(k).Some? :: ParseInt(k).value
  }

  /** The guilds loaded are exactly the integers that the document's keys spell. */
  lemma LoadedGuilds(d: map<string, map<string, Record>>, r: Table)
    requires LoadedFrom(d, r)
    ensures r.Keys == SpelledGuilds(d)
  {
    forall g ensures g in r <==> g in SpelledGuilds(d) {
      if g in SpelledGuilds(d) {
        var k :| k in d && ParseInt(k) == Some(g);
        assert k in d.Keys;
      }
    }
  }

  /** Visiting a key `int()` accepts replaces that guild by the key's records. */
  lemma LoadStep(d: map<string, map<string, Record>>, done: set<string>, r: Table, k: string, g: GuildId)
    requires LoadedPart(d, done, r) && k in d && ParseInt(k) == Some(g)
    ensures LoadedPart(d, done + {k}, r[g := DecodeGuild(d[k])])
  {
    var r' := r[g := DecodeGuild(d[k])];
    forall h | h in r' ensures exists k' :: k' in done + {k} && k' in d && ParseInt(k') == Some(h) && r'[h] == DecodeGuild(d[k']) {
      if h != g {
        var k' :| k' in done && k' in d && ParseInt(k') == Some(h) && r[h] == DecodeGuild(d[k']);
        assert k' in done + {k};
      }
    }
    LoadStepDomain(d, done, r, k, g);
  }

  lemma LoadStepDomain(d: map<string, map<string, Record>>, done: set<string>, r: Table, k: string, g: GuildId)
    requires LoadedPart(d, done, r) && k in d && ParseInt(k) == Some(g)
    ensures forall h :: (exists k' :: k' in done + {k} && k' in d && ParseInt(k') == Some(h)) ==> h in r[g := DecodeGuild(d[k])]
  {
    forall h | exists k' :: k' in done + {k} && k' in d && ParseInt(k') == Some(h) ensures h in r[g := DecodeGuild(d[k])] {
      var k' :| k' in done + {k} && k' in d && ParseInt(k') == Some(h);
      if k' != k {
        assert k' in done;
      }
    }
  }

  /** Visiting a key `int()` rejects changes nothing: that guild is skipped. */
  lemma LoadSkip(d: map<string, map<string, Record>>, done: set<string>, r: Table, k: string)
    requires LoadedPart(d, done, r) && k in d && ParseInt(k).None?
    ensures LoadedPart(d, done + {k}, r)
  {
    forall h | exists k' :: k' in done + {k} && k' in d && ParseInt(k') == Some(h) ensures h in r {
      var k' :| k' in done + {k} && k' in d && ParseInt(k') == Some(h);
      assert k' in done;
    }
    forall h | h in r ensures exists k' :: k' in done + {k} && k' in d && ParseInt(k') == Some(h) && r[h] == DecodeGuild(d[k']) {
      var k' :| k' in done && k' in d && ParseInt(k') == Some(h) && r[h] == DecodeGuild(d[k']);
      assert k' in done + {k};
    }
  }

  lemma DecodeEncodeGuild(m: map<string, Timer>)
    ensures DecodeGuild(EncodeGuild(m)) == m
  {
  }

  /** Loading what save_data wrote gives back exactly the table that was saved. */
  lemma LoadSaveRoundTrip(ts: Table, r: Table)
    requires LoadedFrom(EncodeTable(ts), r)
    ensures r == ts
  {
    forall g | g in r ensures g in ts && r[g] == ts[g] {
      LoadedGuildWasSaved(ts, r, g);
    }
    forall g | g in ts ensures g in r {
      SavedGuildIsLoaded(ts, r, g);
    }
  }

  lemma LoadedGuildWasSaved(ts: Table, r: Table, g: GuildId)
    requires LoadedFrom(EncodeTable(ts), r) && g in r
    ensures g in ts && r[g] == ts[g]
  {
    var d := EncodeTable(ts);
    var k :| k in d.Keys && k in d && ParseInt(k) == Some(g) && r[g] == DecodeGuild(d[k]);
    var h :| h in ts && k == IntToString(h);
    IntToStringRoundTrip(h);
    assert h == g;
    DecodeEncodeGuild(ts[g]);
  }

  lemma SavedGuildIsLoaded(ts: Table, r: Table, g: GuildId)
    requires LoadedFrom(EncodeTable(ts), r) && g in ts
    ensures g in r
  {
    var d := EncodeTable(ts);
    var k := IntToString(g);
    IntToStringRoundTrip(g);
    assert k in d.Keys && k in d && ParseInt(k) == Some(g);
  }

  lemma LoadWithoutKey(d: map<string, map<string, Record>>, k: string, r: Table)
    requires ParseInt(k).None? && LoadedFrom(d, r)
    ensures LoadedFrom(d - {k}, r)
  {
    var d' := d - {k};
    forall g | g in r ensures exists k' :: k' in d'.Keys && k' in d' && ParseInt(k') == Some(g) && r[g] == DecodeGuild(d'[k']) {
      var k' :| k' in d.Keys && k' in d && ParseInt(k') == Some(g) && r[g] == DecodeGuild(d[k']);
      assert k' in d';
    }
    forall g | exists k' :: k' in d'.Keys && k' in d' && ParseInt(k') == Some(g) ensures g in r {
      var k' :| k' in d'.Keys && k' in d' && ParseInt(k') == Some(g);
      assert k' in d.Keys;
    }
  }

  lemma LoadWithKey(d: map<string, map<string, Record>>, k: string, r: Table)
    requires ParseInt(k).None? && LoadedFrom(d - {k}, r)
    ensures LoadedFrom(d, r)
  {
    var d' := d - {k};
    forall g | g in r ensures exists k' :: k' in d.Keys && k' in d && ParseInt(k') == Some(g) && r[g] == DecodeGuild(d[k']) {
      var k' :| k' in d'.Keys && k' in d' && ParseInt(k') == Some(g) && r[g] == DecodeGuild(d'[k']);
      assert k' in d;
    }
    forall g | exists k' :: k' in d.Keys && k' in d && ParseInt(k') == Some(g) ensures g in r {
      var k' :| k' in d.Keys && k' in d && ParseInt(k') == Some(g);
      assert k' in d'.Keys;
    }
  }

  /** A key that is not an integer drops only its own guild. */
  lemma BadGuildKeySkipped(d: map<string, map<string, Record>>, k: string, r: Table)
    requires ParseInt(k).None?
    ensures LoadedFrom(d, r) <==> LoadedFrom(d - {k}, r)
  {
    if LoadedFrom(d, r) {
      LoadWithoutKey(d, k, r);
    }
    if LoadedFrom(d - {k}, r) {
      LoadWithKey(d, k, r);
    }
  }

  /** When no two keys name the same guild, the order of the visit does not matter. */
  lemma LoadDeterministic(d: map<string, map<string, Record>>, r1: Table, r2: Table)
    requires forall k1, k2 :: k1 in d && k2 in d && ParseInt(k1).Some? && ParseInt(k1) == ParseInt(k2) ==> k1 == k2
    requires LoadedFrom(d, r1) && LoadedFrom(d, r2)
    ensures r1 == r2
  {
    forall g | g in r1 ensures g in r2 && r1[g] == r2[g] {
      var k1 :| k1 in d.Keys && k1 in d && ParseInt(k1) == Some(g) && r1[g] == DecodeGuild(d[k1]);
      var k2 :| k2 in d.Keys && k2 in d && ParseInt(k2) == Some(g) && r2[g] == DecodeGuild(d[k2]);
    }
    forall g | g in r2 ensures g in r1 {
      var k2 :| k2 in d.Keys && k2 in d && ParseInt(k2) == Some(g) && r2[g] == DecodeGuild(d[k2]);
    }
  }
}

=== FILE: schedule.dfy ===
/**
 * Instants, interval units and the due-date arithmetic of the maintenance bot
 * (`calculate_next_due`, `strfdelta` and the "due since" value of the timer list).
 */
module Schedule {
  import opened Wrappers

  /**
   * An instant is a naive UTC `datetime` counted in microseconds from
   * 0001-01-01T00:00:00 (`datetime.min`); the last one is
   * 9999-12-31T23:59:59.999999 (`datetime.max`).
   */
  const MaxInstant := 315_537_897_599_999_999

  /** The largest magnitude `timedelta` accepts for its `days`. */
  const MaxDeltaDays := 999_999_999

  type Instant = t: int | 0 <= t <= MaxInstant

  function DaysToMicros(days: int): int { days * 86_400_000_000 }

  /**
   * `t + timedelta(days=d)`: None where Python raises OverflowError, because
   * the timedelta or the resulting datetime falls outside its range.
   */
  function AddDays(t: Instant, d: int): (r: Option<Instant>)
    ensures r.Some? <==> 0 <= t + DaysToMicros(d) <= MaxInstant
    ensures r.Some? ==> r.value == t + DaysToMicros(d)
  {
    if d < -MaxDeltaDays || d > MaxDeltaDays then None
    else if 0 <= t + DaysToMicros(d) <= MaxInstant then Some(t + DaysToMicros(d))
    else None
  }

  /** The interval units a timer can repeat in; a month is taken as 30 days. */
  datatype Unit = Days | Weeks | Months

  /** The lower-case name a timer stores for its unit. */
  function UnitName(u: Unit): string {
    match u
    case Days => "days"
    case Weeks => "weeks"
    case Months => "months"
  }

  /** How many days `value` units last. */
  function IntervalDays(value: int, u: Unit): int {
    match u
    case Days => value
    case Weeks => 7 * value
    case Months => 30 * value
  }

  /**
   * The effect of `str.lower()` on one character, as far as it can matter for
   * matching the unit names: ASCII capitals, and KELVIN SIGN, which lowers to 'k'.
   * Every other character either lowers to itself or to something that is not
   * an ASCII letter.
   */
  function FoldCase(c: char): char {
    if 'A' <= c <= 'Z' then (c as int + 32) as char
    else if c == '\U{212A}' then 'k'
    else c
  }

  function Lower(s: string): (r: string)
    ensures |r| == |s| && forall i :: 0 <= i < |s| ==> r[i] == FoldCase(s[i])
  {
    seq(|s|, i requires 0 <= i < |s| => FoldCase(s[i]))
  }

  /** `s` spells `name` up to letter case. */
  predicate SpellsIgnoringCase(s: string, name: string) {
    |s| == |name| && forall i :: 0 <= i < |s| ==> FoldCase(s[i]) == name[i]
  }

  /** `interval_unit.lower()` compared against "days", "weeks" and "months". */
  function ParseUnit(s: string): (r: Option<Unit>)
    ensures forall u: Unit :: r == Some(u) <==> SpellsIgnoringCase(s, UnitName(u))
  {
    var l := Lower(s);
    if l == "days" then Some(Days)
    else if l == "weeks" then Some(Weeks)
    else if l == "months" then Some(Months)
    else None
  }

  /** The ways `calculate_next_due` yields no datetime. */
  datatype DueError =
    | InvalidUnit   // ValueError: not days, weeks or months
    | ZeroInterval  // a zero timedelta is falsy, so the function returns None
    | OutOfRange    // OverflowError from timedelta or from the addition

  /**
   * `calculate_next_due(value, unit, start)`: start plus `value` days, weeks or
   * 30-day months.
   */
  function CalculateNextDue(value: int, unit: string, start: Instant): (r: Result<Instant, DueError>)
    ensures r == Err(InvalidUnit) <==> ParseUnit(unit).None?
    ensures r == Err(ZeroInterval) <==> ParseUnit(unit).Some? && value == 0
    ensures r.Ok? ==> r.value == start + DaysToMicros(IntervalDays(value, ParseUnit(unit).value))
    ensures r.Ok? ==> (value > 0 <==> r.value > start)
    ensures r.Ok? <==>
      && ParseUnit(unit).Some? && value != 0
      && 0 <= start + DaysToMicros(IntervalDays(value, ParseUnit(unit).value)) <= MaxInstant
  {
    match ParseUnit(unit)
    case None => Err(InvalidUnit)
    case Some(u) =>
      var days := IntervalDays(value, u);
      if days == 0 then Err(ZeroInterval)
      else match AddDays(start, days)
        case None => Err(OutOfRange)
        case Some(due) => Ok(due)
  }

  /**
   * For a positive interval in any letter case of a recognised unit the due
   * date is exactly `value` days, 7 * `value` days or 30 * `value` days after
   * `start`, whenever that is still a representable datetime, and only then.
   */
  lemma NextDueIsStartPlusInterval(value: int, unit: string, u: Unit, start: Instant)
    requires value > 0 && SpellsIgnoringCase(unit, UnitName(u))
    ensures var due := start + DaysToMicros(IntervalDays(value, u));
      && (due <= MaxInstant ==> CalculateNextDue(value, unit, start) == Ok(due))
      && (due > MaxInstant ==> CalculateNextDue(value, unit, start) == Err(OutOfRange))
      && due > start
  {
    assert ParseUnit(unit) == Some(u);
  }

  /** A duration broken into the fields `strfdelta` formats. */
  datatype Parts = Parts(days: int, hours: int, minutes: int, seconds: int)

  function Max0(x: int): int { if x < 0 then 0 else x }

  /** Whole seconds `p` stands for. */
  function TotalSeconds(p: Parts): int {
    p.days * 86400 + p.hours * 3600 + p.minutes * 60 + p.seconds
  }

  /**
   * `strfdelta`: the timedelta's `days` and the hours, minutes and seconds of
   * its `seconds` field, each clamped at zero. A timedelta keeps `seconds` in
   * [0, 86400) and `days` rounded down, so only the days can be clamped.
   */
  function StrfDelta(delta: int): (p: Parts)
    ensures p.days >= 0 && 0 <= p.hours < 24 && 0 <= p.minutes < 60 && 0 <= p.seconds < 60
    ensures delta >= 0 ==> TotalSeconds(p) == delta / 1_000_000
    ensures delta < 0 ==> p.days == 0 && TotalSeconds(p) == (delta % 86_400_000_000) / 1_000_000
  {
    var days := delta / 86_400_000_000;
    var secs := (delta % 86_400_000_000) / 1_000_000;
    var p := Parts(Max0(days), Max0(secs / 3600), Max0(secs % 3600 / 60), Max0(secs % 3600 % 60));
    SecondsSplit(delta);
    p
  }

  lemma SecondsSplit(delta: int)
    ensures var secs := (delta % 86_400_000_000) / 1_000_000;
      && 0 <= secs < 86400
      && delta / 1_000_000 == (delta / 86_400_000_000) * 86400 + secs
      && secs == (secs / 3600) * 3600 + (secs % 3600 / 60) * 60 + secs % 3600 % 60
  {
    var d := delta / 86_400_000_000;
    var m := delta % 86_400_000_000;
    assert delta == d * 86_400_000_000 + m && 0 <= m < 86_400_000_000;
    var secs := m / 1_000_000;
    var us := m % 1_000_000;
    assert m == secs * 1_000_000 + us && 0 <= us < 1_000_000;
    assert delta == (d * 86400 + secs) * 1_000_000 + us;
  }

  /**
   * The list's "due since" for a pending timer:
   * `now - (next_due if next_due <= now else now)`, never negative.
   */
  function DueSince(nextDue: Instant, now: Instant): (r: int)
    ensures r >= 0
    ensures nextDue <= now ==> r == now - nextDue
    ensures now <= nextDue ==> r == 0
  {
    now - (if nextDue <= now then nextDue else now)
  }
}

=== FILE: settings.dfy ===
/** The numeric settings read from the environment at start-up. */
module Settings {
  import opened Wrappers
  import opened Decimal

  const DefaultReminderDays := 7

  /**
   * `int(os.getenv(NAME, str(default)))`, falling back to `default` when the
   * text is not an integer (ValueError) or the integer is not positive.
   */
  function PositiveOrDefault(raw: Option<string>, default: int): (r: int)
    requires default > 0
    ensures r > 0
    ensures raw.None? ==> r == default
    ensures raw.Some? && ParseInt(raw.value).Some? && ParseInt(raw.value).value > 0 ==> r == ParseInt(raw.value).value
    ensures raw.Some? && (ParseInt(raw.value).None? || ParseInt(raw.value).value <= 0) ==> r == default
  {
    IntToStringRoundTrip(default);
    var n := ParseInt(raw.GetOr(IntToString(default)));
    if n.Some? && n.value > 0 then n.value else default
  }
}

=== FILE: tick.dfy ===
/**
 * One run of `check_timers_task`: the state machine each timer goes through
 * and the scan over a snapshot of the table's keys.
 */
module Tick {
  import opened Wrappers
  import opened Schedule
  import opened Timers

  /** What the channel's `send` does: return, raise Forbidden, or raise anything else. */
  datatype SendResult = Delivered | Forbidden | Failed

  datatype Key = Key(guild: GuildId, name: string)

  /** One entry of the key snapshot, with the answer `send` gives if that timer is notified. */
  datatype Visit = Visit(key: Key, send: SendResult)

  datatype Notice = DueNotice | RepeatNotice

  /** What became of one snapshot entry. */
  datatype Check =
    | Absent                                        // the key is no longer in the table
    | NoChannel                                     // the channel did not resolve: skipped
    | Quiet                                         // nothing to send
    | RepeatTimeInvalid                             // the next reminder time overflowed; the error was caught
    | Notified(notice: Notice)                      // sent, and the timer advanced
    | SendRaised(notice: Notice, error: SendResult) // send raised; the timer did not advance

  /** A scheduled timer whose due date has come. */
  predicate IsDue(t: Timer, now: Instant) {
    !t.isPending && t.nextDue.Some? && now >= t.nextDue.value
  }

  /** A pending timer last reminded at least `repeatDays` days ago. */
  predicate RepeatIsDue(t: Timer, now: Instant, repeatDays: int) {
    && t.isPending && t.lastReminded.Some?
    && AddDays(t.lastReminded.value, repeatDays).Some?
    && now >= AddDays(t.lastReminded.value, repeatDays).value
  }

  /** The decision the tick takes for one timer. */
  function Evaluate(t: Timer, now: Instant, repeatDays: int, reachable: set<ChannelId>, send: SendResult): (c: Check)
    ensures c != Absent
    ensures c == NoChannel <==> t.channelId !in reachable
    ensures c.Notified? ==> send == Delivered
    ensures c == Notified(DueNotice) <==> t.channelId in reachable && IsDue(t, now) && send == Delivered
    ensures c == Notified(RepeatNotice) <==>
      t.channelId in reachable && RepeatIsDue(t, now, repeatDays) && send == Delivered
    ensures c.SendRaised? ==> send != Delivered
  {
    if t.channelId !in reachable then NoChannel
    else if IsDue(t, now) then
      if send == Delivered then Notified(DueNotice) else SendRaised(DueNotice, send)
    else if t.isPending && t.lastReminded.Some? then
      match AddDays(t.lastReminded.value, repeatDays)
      case None => RepeatTimeInvalid
      case Some(nextReminder) =>
        if now >= nextReminder then
          if send == Delivered then Notified(RepeatNotice) else SendRaised(RepeatNotice, send)
        else Quiet
    else Quiet
  }

  /** The timer after the decision: only a delivered notice changes it. */
  function Advance(t: Timer, c: Check, now: Instant): (r: Timer)
    requires c == Notified(RepeatNotice) ==> t.isPending
    ensures r == t.(isPending := r.isPending, lastReminded := r.lastReminded)
    ensures c.Notified? ==> r.isPending && r.lastReminded == Some(now)
    ensures !c.Notified? ==> r == t
  {
    match c
    case Notified(DueNotice) => t.(isPending := true, lastReminded := Some(now))
    case Notified(RepeatNotice) => t.(lastReminded := Some(now))
    case _ => t
  }

  /** The table and decision after visiting one snapshot entry. */
  function VisitOne(ts: Table, v: Visit, now: Instant, repeatDays: int, reachable: set<ChannelId>): (r: (Table, Check))
    ensures r.1 == Absent <==> !Has(ts, v.key.guild, v.key.name)
    ensures Has(ts, v.key.guild, v.key.name) ==> r.1 == Evaluate(ts[v.key.guild][v.key.name], now, repeatDays, reachable, v.send)
    ensures !r.1.Notified? ==> r.0 == ts
    ensures r.1.Notified? ==>
      && r.0.Keys == ts.Keys && SameElsewhere(ts, r.0, v.key.guild, v.key.name)
      && Has(r.0, v.key.guild, v.key.name)
      && r.0[v.key.guild][v.key.name] == Advance(ts[v.key.guild][v.key.name], r.1, now)
  {
    var g, n := v.key.guild, v.key.name;
    if !Has(ts, g, n) then (ts, Absent)
    else
      var t := ts[g][n];
      var c := Evaluate(t, now, repeatDays, reachable, v.send);
      if c.Notified? then (ts[g := ts[g][n := Advance(t, c, now)]], c) else (ts, c)
  }

  datatype Pass = Pass(timers: Table, checks: seq<Check>)

  /** The table and the decisions after visiting the entries in order. */
  function Run(ts: Table, visits: seq<Visit>, now: Instant, repeatDays: int, reachable: set<ChannelId>): (p: Pass)
    ensures |p.checks| == |visits|
    decreases |visits|
  {
    if visits == [] then Pass(ts, [])
    else
      var last := |visits| - 1;
      var before := Run(ts, visits[..last], now, repeatDays, reachable);
      var (after, c) := VisitOne(before.timers, visits[last], now, repeatDays, reachable);
      Pass(after, before.checks + [c])
  }

  // ---------------------------------------------------------------------------
  // What a tick can do to a timer

  /** 0 while scheduled, 2 once reminded at `now`, 1 while pending otherwise. */
  function Stage(t: Timer, now: Instant): int {
    if !t.isPending then 0 else if t.lastReminded == Some(now) then 2 else 1
  }

  /** `b` differs from `a` at most by being (or staying) pending with a later stage. */
  ghost predicate TimerAdvanced(a: Timer, b: Timer, now: Instant) {
    && b == a.(isPending := b.isPending, lastReminded := b.lastReminded)
    && (a.isPending ==> b.isPending)
    && Stage(a, now) <= Stage(b, now)
  }

  /** Same guilds and names; every timer only advanced. */
  ghost predicate Advanced(a: Table, b: Table, now: Instant) {
    && a.Keys == b.Keys
    && (forall g :: g in a ==> a[g].Keys == b[g].Keys)
    && (forall g, n :: Has(a, g, n) ==> TimerAdvanced(a[g][n], b[g][n], now))
  }

  lemma VisitOneAdvances(ts: Table, v: Visit, now: Instant, repeatDays: int, reachable: set<ChannelId>)
    ensures Advanced(ts, VisitOne(ts, v, now, repeatDays, reachable).0, now)
    ensures AllConsistent(ts) ==> AllConsistent(VisitOne(ts, v, now, repeatDays, reachable).0)
  {
  }

  lemma AdvancedTransitive(a: Table, b: Table, c: Table, now: Instant)
    requires Advanced(a, b, now) && Advanced(b, c, now)
    ensures Advanced(a, c, now)
  {
    forall g, n | Has(a, g, n) ensures TimerAdvanced(a[g][n], c[g][n], now) {
      assert Has(b, g, n);
    }
  }

  /**
   * A tick never adds or removes a timer, never changes a due date or any
   * other field but the reminder state, and never takes a timer out of
   * pending.
   */
  lemma {:induction false} RunAdvances(ts: Table, visits: seq<Visit>, now: Instant, repeatDays: int, reachable: set<ChannelId>)
    ensures Advanced(ts, Run(ts, visits, now, repeatDays, reachable).timers, now)
    decreases |visits|
  {
    if visits != [] {
      var last := |visits| - 1;
      var before := Run(ts, visits[..last], now, repeatDays, reachable);
      RunAdvances(ts, visits[..last], now, repeatDays, reachable);
      VisitOneAdvances(before.timers, visits[last], now, repeatDays, reachable);
      AdvancedTransitive(ts, before.timers, Run(ts, visits, now, repeatDays, reachable).timers, now);
    }
  }

  /** A tick keeps every timer pending exactly while it records a reminder time. */
  lemma {:induction false} RunKeepsConsistency(ts: Table, visits: seq<Visit>, now: Instant, repeatDays: int, reachable: set<ChannelId>)
    requires AllConsistent(ts)
    ensures AllConsistent(Run(ts, visits, now, repeatDays, reachable).timers)
    decreases |visits|
  {
    if visits != [] {
      var last := |visits| - 1;
      var before := Run(ts, visits[..last], now, repeatDays, reachable);
      RunKeepsConsistency(ts, visits[..last], now, repeatDays, reachable);
      VisitOneAdvances(before.timers, visits[last], now, repeatDays, reachable);
    }
  }

  /** Visiting `a` and then `b` is the same as visiting `a + b`. */
  lemma {:induction false} RunSplit(ts: Table, a: seq<Visit>, b: seq<Visit>, now: Instant, repeatDays: int, reachable: set<ChannelId>)
    ensures var first := Run(ts, a, now, repeatDays, reachable);
      var second := Run(first.timers, b, now, repeatDays, reachable);
      Run(ts, a + b, now, repeatDays, reachable) == Pass(second.timers, first.checks + second.checks)
    decreases |b|
  {
    if b == [] {
      assert a + b == a;
    } else {
      var last := |b| - 1;
      assert (a + b)[..|a + b| - 1] == a + b[..last];
      assert (a + b)[|a + b| - 1] == b[last];
      RunSplit(ts, a, b[..last], now, repeatDays, reachable);
      var first := Run(ts, a, now, repeatDays, reachable);
      var mid := Run(first.timers, b[..last], now, repeatDays, reachable);
      assert first.checks + mid.checks + [VisitOne(mid.timers, b[last], now, repeatDays, reachable).1]
          == first.checks + (mid.checks + [VisitOne(mid.timers, b[last], now, repeatDays, reachable).1]);
    }
  }

  /** Visiting the first i + 1 entries is visiting the first i and then entry i. */
  lemma RunPrefixStep(ts: Table, visits: seq<Visit>, i: nat, now: Instant, repeatDays: int, reachable: set<ChannelId>)
    requires i < |visits|
    ensures var mid := Run(ts, visits[..i], now, repeatDays, reachable);
      var visited := VisitOne(mid.timers, visits[i], now, repeatDays, reachable);
      Run(ts, visits[..i + 1], now, repeatDays, reachable) == Pass(visited.0, mid.checks + [visited.1])
  {
    assert visits[..i + 1][..i] == visits[..i];
  }

  /**
   * An entry that was absent, skipped, not due or whose send raised has no
   * effect on the rest of the tick: the table ends as if it was never visited.
   */
  lemma UnsentVisitIsNoOp(ts: Table, visits: seq<Visit>, i: nat, now: Instant, repeatDays: int, reachable: set<ChannelId>)
    requires i < |visits|
    requires !Run(ts, visits, now, repeatDays, reachable).checks[i].Notified?
    ensures Run(ts, visits, now, repeatDays, reachable).timers
         == Run(ts, visits[..i] + visits[i + 1..], now, repeatDays, reachable).timers
    ensures var checks := Run(ts, visits, now, repeatDays, reachable).checks;
      checks[..i] + checks[i + 1..] == Run(ts, visits[..i] + visits[i + 1..], now, repeatDays, reachable).checks
  {
    var head, rest := visits[..i + 1], visits[i + 1..];
    var mid := Run(ts, visits[..i], now, repeatDays, reachable);
    var stepped := Run(ts, head, now, repeatDays, reachable);
    var visited := VisitOne(mid.timers, visits[i], now, repeatDays, reachable);
    RunPrefixStep(ts, visits, i, now, repeatDays, reachable);
    assert visits == head + rest;
    RunSplit(ts, head, rest, now, repeatDays, reachable);
    assert stepped.checks[i] == visited.1;
    assert stepped.timers == mid.timers;
    RunSplit(ts, visits[..i], rest, now, repeatDays, reachable);
    var second := Run(mid.timers, rest, now, repeatDays, reachable);
    var checks := Run(ts, visits, now, repeatDays, reachable).checks;
    assert checks == mid.checks + [visited.1] + second.checks;
    assert checks[..i] == mid.checks && checks[i + 1..] == second.checks;
  }

  /** A tick in which nothing was sent leaves the table as it was. */
  lemma {:induction false} RunWithoutNoticeUnchanged(ts: Table, visits: seq<Visit>, now: Instant, repeatDays: int, reachable: set<ChannelId>)
    requires forall j :: 0 <= j < |visits| ==> !Run(ts, visits, now, repeatDays, reachable).checks[j].Notified?
    ensures Run(ts, visits, now, repeatDays, reachable).timers == ts
    decreases |visits|
  {
    if visits != [] {
      var last := |visits| - 1;
      var before := Run(ts, visits[..last], now, repeatDays, reachable);
      var visited := VisitOne(before.timers, visits[last], now, repeatDays, reachable);
      var whole := Run(ts, visits, now, repeatDays, reachable);
      assert whole == Pass(visited.0, before.checks + [visited.1]);
      assert forall j :: 0 <= j < last ==> before.checks[j] == whole.checks[j];
      assert whole.checks[last] == visited.1;
      RunWithoutNoticeUnchanged(ts, visits[..last], now, repeatDays, reachable);
    }
  }

  /** With a positive repeat interval, a delivered notice leaves its timer at a higher stage than before. */
  lemma NoticeRaisesStage(t: Timer, now: Instant, repeatDays: int, reachable: set<ChannelId>, send: SendResult)
    requires repeatDays > 0
    requires Evaluate(t, now, repeatDays, reachable, send).Notified?
    ensures Stage(t, now) < 2
    ensures Stage(Advance(t, Evaluate(t, now, repeatDays, reachable, send), now), now) == 2
  {
  }

  /**
   * With a positive repeat interval, the entry notified at step j was below
   * stage 2 in the table the tick started from, and is at stage 2 just after.
   */
  lemma NoticeStepRaisesStage(ts: Table, visits: seq<Visit>, j: nat, now: Instant, repeatDays: int, reachable: set<ChannelId>)
    requires repeatDays > 0 && j < |visits|
    requires Run(ts, visits[..j + 1], now, repeatDays, reachable).checks[j].Notified?
    ensures var k := visits[j].key;
      var stepped := Run(ts, visits[..j + 1], now, repeatDays, reachable).timers;
      && Has(ts, k.guild, k.name) && Stage(ts[k.guild][k.name], now) < 2
      && Has(stepped, k.guild, k.name) && Stage(stepped[k.guild][k.name], now) == 2
  {
    var k := visits[j].key;
    var mid := Run(ts, visits[..j], now, repeatDays, reachable);
    RunPrefixStep(ts, visits, j, now, repeatDays, reachable);
    assert Has(mid.timers, k.guild, k.name);
    var t := mid.timers[k.guild][k.name];
    NoticeRaisesStage(t, now, repeatDays, reachable, visits[j].send);
    RunAdvances(ts, visits[..j], now, repeatDays, reachable);
  }

  /** With a positive repeat interval, a tick that sent a notice changed the table. */
  lemma NoticeChangesTable(ts: Table, visits: seq<Visit>, j: nat, now: Instant, repeatDays: int, reachable: set<ChannelId>)
    requires repeatDays > 0 && j < |visits|
    requires Run(ts, visits, now, repeatDays, reachable).checks[j].Notified?
    ensures Run(ts, visits, now, repeatDays, reachable).timers != ts
  {
    var head, rest := visits[..j + 1], visits[j + 1..];
    assert visits == head + rest;
    RunSplit(ts, head, rest, now, repeatDays, reachable);
    var stepped := Run(ts, head, now, repeatDays, reachable);
    var final := Run(ts, visits, now, repeatDays, reachable);
    assert stepped.checks[j] == final.checks[j];
    NoticeStepRaisesStage(ts, visits, j, now, repeatDays, reachable);
    RunAdvances(stepped.timers, rest, now, repeatDays, reachable);
    var k := visits[j].key;
    assert Stage(final.timers[k.guild][k.name], now) == 2;
  }

  /**
   * With a positive repeat interval the tick saves (some entry was notified)
   * exactly when the table changed.
   */
  lemma SavedIffChanged(ts: Table, visits: seq<Visit>, now: Instant, repeatDays: int, reachable: set<ChannelId>)
    requires repeatDays > 0
    ensures var p := Run(ts, visits, now, repeatDays, reachable);
      (exists j :: 0 <= j < |p.checks| && p.checks[j].Notified?) <==> p.timers != ts
  {
    var p := Run(ts, visits, now, repeatDays, reachable);
    if exists j :: 0 <= j < |p.checks| && p.checks[j].Notified? {
      var j :| 0 <= j < |p.checks| && p.checks[j].Notified?;
      NoticeChangesTable(ts, visits, j, now, repeatDays, reachable);
    } else {
      RunWithoutNoticeUnchanged(ts, visits, now, repeatDays, reachable);
    }
  }

  // ---------------------------------------------------------------------------
  // A timer's life

  /**
   * A one-day timer created at `t0` is scheduled one day later; a tick one
   * second after that delivers the due notice and leaves it pending,
   * reminded at that moment.
   */
  lemma CreatedTimerFallsDue(ts: Table, g: GuildId, n: string, owner: string, description: string,
                             channel: ChannelId, t0: Instant, repeatDays: int)
    requires !Has(ts, g, n)
    requires t0 + DaysToMicros(1) + 1_000_000 <= MaxInstant
    ensures
      var created := Create(ts, g, n, 1, "days", owner, description, channel, t0);
      var t1: Instant := t0 + DaysToMicros(1) + 1_000_000;
      var first := Run(created.timers, [Visit(Key(g, n), Delivered)], t1, repeatDays, {channel});
      && created.reply.Ok?
      && created.reply.value.nextDue == Some(t0 + DaysToMicros(1)) && !created.reply.value.isPending
      && first.checks == [Notified(DueNotice)]
      && Has(first.timers, g, n)
      && first.timers[g][n] == created.reply.value.(isPending := true, lastReminded := Some(t1))
  {
    OneDayLater(t0);
    var created := Create(ts, g, n, 1, "days", owner, description, channel, t0);
    var t1: Instant := t0 + DaysToMicros(1) + 1_000_000;
    DueStep(created.timers, Key(g, n), t1, repeatDays, channel);
  }

  /** A delivered due notice makes the timer pending, reminded at `now`. */
  lemma DueStep(ts: Table, key: Key, now: Instant, repeatDays: int, channel: ChannelId)
    requires Has(ts, key.guild, key.name)
    requires var t := ts[key.guild][key.name];
      t.channelId == channel && IsDue(t, now)
    ensures var t := ts[key.guild][key.name];
      Run(ts, [Visit(key, Delivered)], now, repeatDays, {channel})
        == Pass(ts[key.guild := ts[key.guild][key.name := t.(isPending := true, lastReminded := Some(now))]],
                [Notified(DueNotice)])
  {
    RunOne(ts, Visit(key, Delivered), now, repeatDays, {channel});
  }

  /** A delivered repeat notice moves the reminder time to `now`. */
  lemma RepeatStep(ts: Table, key: Key, now: Instant, repeatDays: int, channel: ChannelId)
    requires Has(ts, key.guild, key.name)
    requires var t := ts[key.guild][key.name];
      t.channelId == channel && RepeatIsDue(t, now, repeatDays)
    ensures var t := ts[key.guild][key.name];
      Run(ts, [Visit(key, Delivered)], now, repeatDays, {channel})
        == Pass(ts[key.guild := ts[key.guild][key.name := t.(lastReminded := Some(now))]],
                [Notified(RepeatNotice)])
  {
    RunOne(ts, Visit(key, Delivered), now, repeatDays, {channel});
  }

  lemma OneDayLater(start: Instant)
    requires start + DaysToMicros(1) <= MaxInstant
    ensures CalculateNextDue(1, "days", start) == Ok(start + DaysToMicros(1))
  {
    assert Lower("days") == "days";
  }

  lemma RunOne(ts: Table, v: Visit, now: Instant, repeatDays: int, reachable: set<ChannelId>)
    ensures var visited := VisitOne(ts, v, now, repeatDays, reachable);
      Run(ts, [v], now, repeatDays, reachable) == Pass(visited.0, [visited.1])
  {
    assert [v][..0] == [];
  }
}

=== FILE: timers.dfy ===
/**
 * Timers and what the slash-command handlers do to the table of timers:
 * `create_timer`, `done_timer`, `delete_timer` and the ordering and
 * due-date display of `list_timers`.
 */
module Timers {
  import opened Wrappers
  import opened Schedule

  type GuildId = int
  type ChannelId = int

  /** One recurring maintenance task, as the bot keeps it in memory. */
  datatype Timer = Timer(
    name: string,
    intervalValue: int,
    intervalUnit: string,
    description: string,
    owner: string,
    channelId: ChannelId,
    nextDue: Option<Instant>,
    isPending: bool,
    lastReminded: Option<Instant>)
  {
    /** A timer is pending exactly while a reminder time is recorded. */
    predicate Consistent() { isPending <==> lastReminded.Some? }
  }

  /** The global `timers` dict: guild id, then timer name, then timer. */
  type Table = map<GuildId, map<string, Timer>>

  predicate Has(ts: Table, g: GuildId, n: string) { g in ts && n in ts[g] }

  ghost predicate AllConsistent(ts: Table) {
    forall g, n :: Has(ts, g, n) ==> ts[g][n].Consistent()
  }

  /** No guild is kept with an empty dict of timers. */
  ghost predicate NoEmptyGuild(ts: Table) {
    forall g :: g in ts ==> ts[g] != map[]
  }

  /** Every entry except (guild, name) is present in one table iff in the other, with the same timer. */
  ghost predicate SameElsewhere(a: Table, b: Table, guild: GuildId, name: string) {
    forall g, n :: (g != guild || n != name) ==>
      (Has(a, g, n) <==> Has(b, g, n)) && (Has(a, g, n) ==> a[g][n] == b[g][n])
  }

  /** Why a command was refused; each refusal is answered to the user. */
  datatype Rejection =
    | NotPositive
    | UnknownUnit
    | DuplicateName
    | NotFound
    | NotPending
    | NoPermission
    | Unschedulable(cause: DueError)

  /** The table after a command and the command's answer. */
  datatype Update<T> = Update(timers: Table, reply: Result<T, Rejection>)

  /**
   * `create_timer` in guild `guild`, issued from channel `channel` at `now`.
   * The guild's dict is created before the duplicate check, so when the due
   * date cannot be represented it stays behind, empty.
   */
  function Create(ts: Table, guild: GuildId, name: string, value: int, unit: string,
                  owner: string, description: string, channel: ChannelId, now: Instant): (u: Update<Timer>)
    ensures value <= 0 ==> u == Update(ts, Err(NotPositive))
    ensures value > 0 && ParseUnit(unit).None? ==> u == Update(ts, Err(UnknownUnit))
    ensures value > 0 && ParseUnit(unit).Some? && Has(ts, guild, name) ==> u == Update(ts, Err(DuplicateName))
    ensures u.reply.Ok? <==>
      value > 0 && ParseUnit(unit).Some? && !Has(ts, guild, name) && CalculateNextDue(value, unit, now).Ok?
    ensures u.reply.Ok? ==>
      && Has(u.timers, guild, name) && u.timers[guild][name] == u.reply.value
      && u.reply.value == Timer(name, value, UnitName(ParseUnit(unit).value), description, owner, channel,
                                Some(CalculateNextDue(value, unit, now).value), false, None)
      && SameElsewhere(ts, u.timers, guild, name)
      && u.timers.Keys == ts.Keys + {guild}
    ensures value > 0 && ParseUnit(unit).Some? && !Has(ts, guild, name) && CalculateNextDue(value, unit, now).Err? ==>
      u.reply == Err(Unschedulable(CalculateNextDue(value, unit, now).error))
    ensures u.reply.Err? ==>
      u.timers == if u.reply == Err(Unschedulable(OutOfRange)) && guild !in ts then ts[guild := map[]] else ts
  {
    if value <= 0 then Update(ts, Err(NotPositive))
    else if ParseUnit(unit).None? then Update(ts, Err(UnknownUnit))
    else
      var withGuild := if guild in ts then ts else ts[guild := map[]];
      if name in withGuild[guild] then Update(withGuild, Err(DuplicateName))
      else match CalculateNextDue(value, unit, now)
        case Err(e) => Update(withGuild, Err(Unschedulable(e)))
        case Ok(due) =>
          var t := Timer(name, value, UnitName(ParseUnit(unit).value), description, owner, channel,
                         Some(due), false, None);
          Update(withGuild[guild := withGuild[guild][name := t]], Ok(t))
  }

  /**
   * `done_timer` at `now`: a pending timer starts a new cycle counted from
   * `now`, not from its old due date.
   */
  function MarkDone(ts: Table, guild: GuildId, name: string, now: Instant): (u: Update<Timer>)
    ensures !Has(ts, guild, name) ==> u == Update(ts, Err(NotFound))
    ensures Has(ts, guild, name) && !ts[guild][name].isPending ==> u == Update(ts, Err(NotPending))
    ensures u.reply.Err? ==> u.timers == ts
    ensures u.reply.Ok? <==>
      && Has(ts, guild, name) && ts[guild][name].isPending
      && CalculateNextDue(ts[guild][name].intervalValue, ts[guild][name].intervalUnit, now).Ok?
    ensures u.reply.Ok? ==>
      var t := ts[guild][name];
      && u.reply.value == t.(nextDue := Some(CalculateNextDue(t.intervalValue, t.intervalUnit, now).value),
                             isPending := false, lastReminded := None)
      && Has(u.timers, guild, name) && u.timers[guild][name] == u.reply.value
      && SameElsewhere(ts, u.timers, guild, name)
      && u.timers.Keys == ts.Keys
  {
    if !Has(ts, guild, name) then Update(ts, Err(NotFound))
    else
      var t := ts[guild][name];
      if !t.isPending then Update(ts, Err(NotPending))
      else match CalculateNextDue(t.intervalValue, t.intervalUnit, now)
        case Err(e) => Update(ts, Err(Unschedulable(e)))
        case Ok(due) =>
          var done := t.(isPending := false, lastReminded := None, nextDue := Some(due));
          Update(ts[guild := ts[guild][name := done]], Ok(done))
  }

  /**
   * `delete_timer`, by a member who may or may not manage the guild: the
   * entry goes, and so does the guild once it has no timer left.
   */
  function Delete(ts: Table, guild: GuildId, name: string, canManage: bool): (u: Update<()>)
    ensures !canManage ==> u == Update(ts, Err(NoPermission))
    ensures canManage && !Has(ts, guild, name) ==> u == Update(ts, Err(NotFound))
    ensures u.reply.Err? ==> u.timers == ts
    ensures u.reply.Ok? <==> canManage && Has(ts, guild, name)
    ensures u.reply.Ok? ==>
      && !Has(u.timers, guild, name)
      && SameElsewhere(ts, u.timers, guild, name)
      && u.timers.Keys == if ts[guild].Keys == {name} then ts.Keys - {guild} else ts.Keys
  {
    if !canManage then Update(ts, Err(NoPermission))
    else if !Has(ts, guild, name) then Update(ts, Err(NotFound))
    else
      var rest := ts[guild] - {name};
      assert rest.Keys == ts[guild].Keys - {name};
      assert forall n :: n in ts[guild] && n != name ==> n in rest;
      Update(if rest == map[] then ts - {guild} else ts[guild := rest], Ok(()))
  }

  /** A timer's name is unique in its guild only: the same name may be used in another guild. */
  lemma NamesUniquePerGuild(ts: Table, guild: GuildId, other: GuildId, name: string, value: int, unit: string,
                            owner: string, description: string, channel: ChannelId, now: Instant,
                            value': int, unit': string, owner': string, description': string, channel': ChannelId)
    requires Create(ts, guild, name, value, unit, owner, description, channel, now).reply.Ok?
    requires value' > 0 && ParseUnit(unit').Some?
    ensures var after := Create(ts, guild, name, value, unit, owner, description, channel, now).timers;
      && Create(after, guild, name, value', unit', owner', description', channel', now) == Update(after, Err(DuplicateName))
      && (other != guild ==>
            Create(after, other, name, value', unit', owner', description', channel', now).reply
            == Create(ts, other, name, value', unit', owner', description', channel', now).reply)
  {
    var after := Create(ts, guild, name, value, unit, owner, description, channel, now).timers;
    if other != guild {
      assert Has(after, other, name) <==> Has(ts, other, name);
    }
  }

  /** Deleting a timer just created gives the table back, as long as the table kept no empty guild. */
  lemma DeleteUndoesCreate(ts: Table, guild: GuildId, name: string, value: int, unit: string,
                           owner: string, description: string, channel: ChannelId, now: Instant)
    requires NoEmptyGuild(ts)
    requires Create(ts, guild, name, value, unit, owner, description, channel, now).reply.Ok?
    ensures Delete(Create(ts, guild, name, value, unit, owner, description, channel, now).timers, guild, name, true)
            == Update(ts, Ok(()))
  {
    var after := Create(ts, guild, name, value, unit, owner, description, channel, now).timers;
    var back := Delete(after, guild, name, true).timers;
    assert after[guild] - {name} == (if guild in ts then ts[guild] else map[]);
    if guild in ts {
      assert ts[guild] != map[];
      assert back == ts;
    } else {
      assert back == ts;
    }
  }

  /** A pending timer's new cycle does not depend on the due date it had. */
  lemma MarkDoneForgetsOldDue(ts: Table, guild: GuildId, name: string, now: Instant, oldDue: Option<Instant>)
    requires Has(ts, guild, name)
    ensures var moved := ts[guild := ts[guild][name := ts[guild][name].(nextDue := oldDue)]];
      MarkDone(moved, guild, name, now).reply == MarkDone(ts, guild, name, now).reply
  {
  }

  /** The commands keep every timer pending exactly while it records a reminder time. */
  lemma CommandsKeepConsistency(ts: Table, guild: GuildId, name: string, value: int, unit: string,
                                owner: string, description: string, channel: ChannelId, now: Instant, canManage: bool)
    requires AllConsistent(ts)
    ensures AllConsistent(Create(ts, guild, name, value, unit, owner, description, channel, now).timers)
    ensures AllConsistent(MarkDone(ts, guild, name, now).timers)
    ensures AllConsistent(Delete(ts, guild, name, canManage).timers)
  {
    var c := Create(ts, guild, name, value, unit, owner, description, channel, now);
    forall g, n | Has(c.timers, g, n) ensures c.timers[g][n].Consistent() {
      if c.reply.Ok? && (g != guild || n != name) {
        assert Has(ts, g, n);
      }
    }
    var m := MarkDone(ts, guild, name, now);
    forall g, n | Has(m.timers, g, n) ensures m.timers[g][n].Consistent() {
      if m.reply.Ok? && (g != guild || n != name) {
        assert Has(ts, g, n);
      }
    }
    var d := Delete(ts, guild, name, canManage);
    forall g, n | Has(d.timers, g, n) ensures d.timers[g][n].Consistent() {
      if d.reply.Ok? {
        assert Has(ts, g, n);
      }
    }
  }

  /**
   * Marking done and deleting never leave an empty guild behind; creating
   * leaves one only when the new due date is out of range in a new guild.
   */
  lemma CommandsKeepGuildsNonEmpty(ts: Table, guild: GuildId, name: string, value: int, unit: string,
                                   owner: string, description: string, channel: ChannelId, now: Instant, canManage: bool)
    requires NoEmptyGuild(ts)
    ensures var c := Create(ts, guild, name, value, unit, owner, description, channel, now);
      NoEmptyGuild(c.timers) <==> c.reply != Err(Unschedulable(OutOfRange)) || guild in ts
    ensures NoEmptyGuild(MarkDone(ts, guild, name, now).timers)
    ensures NoEmptyGuild(Delete(ts, guild, name, canManage).timers)
  {
    var c := Create(ts, guild, name, value, unit, owner, description, channel, now);
    if c.reply.Ok? {
      forall g | g in c.timers ensures c.timers[g] != map[] {
        if g == guild {
          assert name in c.timers[g];
        } else {
          assert g in ts;
          var n :| n in ts[g];
          assert Has(ts, g, n);
        }
      }
    }
    var m := MarkDone(ts, guild, name, now);
    if m.reply.Ok? {
      forall g | g in m.timers ensures m.timers[g] != map[] {
        if g == guild {
          assert name in m.timers[g];
        } else {
          assert g in ts;
          var n :| n in ts[g];
          assert Has(ts, g, n);
        }
      }
    }
    var d := Delete(ts, guild, name, canManage);
    if d.reply.Ok? {
      forall g | g in d.timers ensures d.timers[g] != map[] {
        if g == guild {
          assert ts[guild].Keys != {name};
          var n :| n in ts[guild] && n != name;
          assert Has(d.timers, g, n);
        } else {
          assert g in ts;
          var n :| n in ts[g];
          assert Has(d.timers, g, n);
        }
      }
    }
  }

  /** The case where creating leaves an empty guild does happen: a 999999999-day interval at `datetime.min`. */
  lemma CreateCanLeaveEmptyGuild()
    ensures Create(map[], 1, "filter", 999_999_999, "days", "owner", "task", 2, 0) == Update(map[1 := map[]], Err(Unschedulable(OutOfRange)))
  {
    assert ParseUnit("days") == Some(Days);
  }

  // ---------------------------------------------------------------------------
  // list_timers

  /** The sort key of `list_timers`: the due date, or `datetime.max` when there is none. */
  function SortKey(t: Timer): Instant {
    if t.nextDue.Some? then t.nextDue.value else MaxInstant
  }

  ghost predicate SortedByDue(s: seq<Timer>) {
    forall i, j :: 0 <= i < j < |s| ==> SortKey(s[i]) <= SortKey(s[j])
  }

  /** Puts `t` before the first timer that is due no earlier, so that ties keep their order. */
  function InsertByDue(t: Timer, s: seq<Timer>): (r: seq<Timer>)
    requires SortedByDue(s)
    ensures SortedByDue(r) && multiset(r) == multiset(s) + multiset{t}
    ensures |r| == |s| + 1 && (r[0] == t || (s != [] && r[0] == s[0]))
  {
    if s == [] || SortKey(t) <= SortKey(s[0]) then [t] + s
    else
      assert s == [s[0]] + s[1..];
      [s[0]] + InsertByDue(t, s[1..])
  }

  /** Python's stable `sorted` by `SortKey`. */
  function SortByDue(s: seq<Timer>): (r: seq<Timer>)
    ensures SortedByDue(r) && multiset(r) == multiset(s) && |r| == |s|
  {
    if s == [] then [] else
      assert s == [s[0]] + s[1..];
      InsertByDue(s[0], SortByDue(s[1..]))
  }

  /** The timers of `s` whose sort key is `k`, in order. */
  function WithKey(s: seq<Timer>, k: int): seq<Timer> {
    if s == [] then []
    else (if SortKey(s[0]) == k then [s[0]] else []) + WithKey(s[1..], k)
  }

  function Keyed(t: Timer, k: int): seq<Timer> {
    if SortKey(t) == k then [t] else []
  }

  lemma WithKeyCons(t: Timer, s: seq<Timer>, k: int)
    ensures WithKey([t] + s, k) == Keyed(t, k) + WithKey(s, k)
  {
    assert ([t] + s)[1..] == s;
  }

  lemma {:induction false} InsertWithKey(t: Timer, s: seq<Timer>, k: int)
    requires SortedByDue(s)
    ensures WithKey(InsertByDue(t, s), k) == Keyed(t, k) + WithKey(s, k)
  {
    if s == [] || SortKey(t) <= SortKey(s[0]) {
      WithKeyCons(t, s, k);
    } else {
      var rest := InsertByDue(t, s[1..]);
      // t sorts strictly after s[0], so at most one of them has key k
      assert Keyed(s[0], k) == [] || Keyed(t, k) == [];
      calc {
        WithKey(InsertByDue(t, s), k);
        WithKey([s[0]] + rest, k);
        { WithKeyCons(s[0], rest, k); }
        Keyed(s[0], k) + WithKey(rest, k);
        { InsertWithKey(t, s[1..], k); }
        Keyed(s[0], k) + (Keyed(t, k) + WithKey(s[1..], k));
        Keyed(t, k) + (Keyed(s[0], k) + WithKey(s[1..], k));
        { WithKeyCons(s[0], s[1..], k); assert s == [s[0]] + s[1..]; }
        Keyed(t, k) + WithKey(s, k);
      }
    }
  }

  /** The sort is stable: timers with equal keys keep their relative order. */
  lemma {:induction false} SortByDueStable(s: seq<Timer>, k: int)
    ensures WithKey(SortByDue(s), k) == WithKey(s, k)
  {
    if s != [] {
      SortByDueStable(s[1..], k);
      InsertWithKey(s[0], SortByDue(s[1..]), k);
    }
  }

  /** `order` lists the keys of `m` once each, in the dict's iteration order. */
  predicate ListsNames(order: seq<string>, m: map<string, Timer>) {
    && (forall i, j :: 0 <= i < j < |order| ==> order[i] != order[j])
    && (forall i :: 0 <= i < |order| ==> order[i] in m)
    && (forall n :: n in m ==> n in order)
  }

  function InOrder(m: map<string, Timer>, order: seq<string>): (r: seq<Timer>)
    requires forall i :: 0 <= i < |order| ==> order[i] in m
    ensures |r| == |order| && forall i :: 0 <= i < |order| ==> r[i] == m[order[i]]
  {
    seq(|order|, i requires 0 <= i < |order| => m[order[i]])
  }

  /**
   * The timers `list_timers` shows for `guild`, given the order the guild's
   * dict iterates in; None when the guild has no timers.
   */
  function Listing(ts: Table, guild: GuildId, order: seq<string>): (r: Option<seq<Timer>>)
    requires guild in ts ==> ListsNames(order, ts[guild])
    ensures r.None? <==> guild !in ts || ts[guild] == map[]
    ensures r.Some? ==>
      && SortedByDue(r.value)
      && multiset(r.value) == multiset(InOrder(ts[guild], order))
      && |r.value| == |ts[guild]|
    ensures r.Some? ==> forall i, j :: 0 <= i < j < |r.value| && r.value[i].nextDue.None? ==>
      SortKey(r.value[j]) == MaxInstant
  {
    if guild !in ts || ts[guild] == map[] then None
    else
      NamesCount(order, ts[guild]);
      Some(SortByDue(InOrder(ts[guild], order)))
  }

  lemma {:induction false} NamesCount(order: seq<string>, m: map<string, Timer>)
    requires ListsNames(order, m)
    ensures |order| == |m|
  {
    var names := set i | 0 <= i < |order| :: order[i];
    assert names == m.Keys;
    DistinctCount(order);
  }

  lemma {:induction false} DistinctCount(order: seq<string>)
    requires forall i, j :: 0 <= i < j < |order| ==> order[i] != order[j]
    ensures |set i | 0 <= i < |order| :: order[i]| == |order|
  {
    if order != [] {
      var last := |order| - 1;
      DistinctCount(order[..last]);
      var prefix := set i | 0 <= i < last :: order[..last][i];
      var all := set i | 0 <= i < |order| :: order[i];
      assert all == prefix + {order[last]};
      assert order[last] !in prefix;
    }
  }

  /** What the list shows about a timer's due date. */
  datatype When =
    | NotScheduled                          // "Next due date not set."
    | OriginallyDue(at: Instant, ago: Parts) // pending: "Originally due: ... (... ago)"
    | NextDue(at: Instant, left: Parts)      // "Next due: ... (in ...)"
    | Overdue(at: Instant)                   // "Due: ... (Overdue!)"

  function DueDisplay(t: Timer, now: Instant): (w: When)
    ensures w == NotScheduled <==> t.nextDue.None?
    ensures w.OriginallyDue? <==> t.nextDue.Some? && t.isPending
    ensures w.Overdue? <==> t.nextDue.Some? && !t.isPending && t.nextDue.value <= now
    ensures w.OriginallyDue? ==> TotalSeconds(w.ago) == DueSince(t.nextDue.value, now) / 1_000_000
    ensures w.NextDue? ==> now < w.at && TotalSeconds(w.left) == (w.at - now) / 1_000_000
    ensures w != NotScheduled ==> w.at == t.nextDue.value
    ensures w.OriginallyDue? ==> w.ago == StrfDelta(DueSince(t.nextDue.value, now))
    ensures w.NextDue? ==> w.left == StrfDelta(w.at - now)
  {
    match t.nextDue
    case None => NotScheduled
    case Some(due) =>
      if t.isPending then OriginallyDue(due, StrfDelta(DueSince(due, now)))
      else if due - now > 0 then NextDue(due, StrfDelta(due - now))
      else Overdue(due)
  }
}

=== FILE: wrappers.dfy ===
/** Optional values and results with an error, used for Python's `None` and raised errors. */
module Wrappers {

  datatype Option<+T> = None | Some(value: T) {
    function GetOr(default: T): T {
      match this
      case Some(v) => v
      case None => default
    }
  }

  datatype Result<+T, +E> = Ok(value: T) | Err(error: E)
}
